=== FILE: README.md ===
# CarouShare lending marketplace: a Dafny model of its domain rules

CarouShare is a peer-to-peer lending marketplace. An Express server (`server.js`) runs parameterised SQL against PostgreSQL, and a React client handles advertisements and bidding. This project models the parts of that system that have rules. Each part is a pure function over immutable records, and the project proves properties of those functions.

- **Tables** (`tables.dfy`). One record type per table: `UserAccount`, `LoanerItem`, `InvoicedLoan` (tri-state `isReturned`: returned, lost or NULL), `Membership` (the Joins table), and the `loaner` / `borrower` registries. They are gathered in a `Db` value. Nullable columns are `Option`, a loan's start and end dates among them. Dates are integers, and "today" is always a parameter. The lazy registration in `loaner` and `borrower` is `Register`: look the user up, and insert a row only if none was found.
- **Items** (`items.dfy`). Three handlers:
  - the available-items listing of `GET /items`, covering the main query's natural join with `UserAccount`, the correlated `not exists` sub-query and `distinct`;
  - `POST /add-item`, which registers the loaner and inserts the item under the next serial id;
  - `PATCH /add-item`, which updates the row whose id is the body's `itemId`.

  Request bodies are maps from key to JSON value. The handlers read camel-case keys, and an absent key reaches SQL as NULL.
- **Loans** (`loans.dfy`).
  - `POST /users/loans` and `POST /insertbid` register the borrower *before* validating.
  - `PATCH /users/loanreturn` and `DELETE /users/loans` validate (400), then check that the invoice exists (404).
  - `GET /users/loans` is the loan history. It has a loaner view and a borrower view, and is ordered by `startDate` descending.

  The stored procedures these handlers call are database objects defined outside `server.js`. The model records each call as a `ProcCall`, and a failure flag stands for the procedure's error.
- **Groups** (`groups.dfy`). `DELETE /joins`: a user leaving an interest group.
- **Auction** (`auction.dfy`). The advertisement list (`Advertisements.tsx`):
  - which advertisements a user is shown;
  - the next possible bid on each;
  - the crash when an advertisement's item is missing from the item map.
- **Bid form** (`bid.dfy`). `Bid.tsx` as a state machine over its two state fields. Its events are new props, typing, and submitting. Lemmas over any sequence of events show that the threshold always equals the current prop, and that no bid below a floor is ever placed.
- **Decimal text** (`decimal.dfy`). JavaScript's decimal `toString`, and PostgreSQL's reading of a text parameter into an integer column. node-postgres sends every parameter as text, so a request value counts by what its text reads as in the column, not by its JSON kind.
- **Date strings** (`datestrings.dfy`). Two-digit padding, `split('-')` and its inverse, the default "next year" date, and the `YYYY-MM-DD` to `DD-MM-YYYY` reordering.
- **Advertise form** (`advertise.dfy`). `Advertise.tsx`'s initial state and what a submit sends: the advertisement request, plus an item PATCH only when the description was edited.

**Availability as the query computes it.** The sub-query at `server.js:92-93` hides an item when a paired loan is lost (`isReturned is false`) **or** when today lies within the loan's period, both ends included. So a returned loan still hides the item until its end date. A pending (NULL) loan outside its period does not hide it, and neither does a loan with a NULL start or end date, because `between` with a NULL bound is not true.

## Model

| member | source | states |
|---|---|---|
| Tables.Register | server.js:143-151 | after registration the user is in the registry; existing rows are kept in order; the only row added is that user; a registry without duplicates stays without duplicates |
| Tables.RegisterIdempotent | server.js:143-151 | registering the same user a second time adds nothing |
| Tables.RegisterGrowsByAtMostOne | server.js:143-151 | the registry grows by at most one row, and its members are exactly the old members plus the user |
| Seqs.Distinct | server.js:88 | `select distinct`: the result holds exactly the input's rows, each once |
| Items.OwnerRows | server.js:88-91 | the natural join with UserAccount pairs an item with exactly the accounts whose id is its (non-NULL) owner |
| Items.Candidates | server.js:88-93 | a row is produced exactly when some item has an owning account and the `not exists` sub-query finds no paired blocking loan for its id |
| Items.AvailableItems | server.js:84-95 | the listing holds exactly the qualifying rows, with no duplicates |
| Items.BlockedItemNeverListed | server.js:92-93 | an item with a paired loan that is lost, or whose two dates are present and enclose today (inclusive), is not listed |
| Items.LostItemNeverListed | server.js:92-93 | an item with a paired lost loan is not listed on any date |
| Items.FreeItemListedOnce | server.js:88-93 | an item with an owning account and no paired blocking loan is listed exactly once |
| Items.EditedLostItemListedAgain | server.js:92-93 | as written: a lost item, once an edit has set its fee to NULL, is listed again, while pairing on item id alone keeps it hidden |
| Items.IntendedHidesEveryActiveLoan | server.js:92-93 | corrected: pairing on item id alone, any lost or current loan hides the item, whatever fee either row records |
| Items.AsInteger | server.js:153-162 | a JSON number reads back as itself; a string reads as the integer its text denotes, or fails |
| Items.ReadItemFields | server.js:153-162 | each of the six columns comes from its camel-case body key: NULL when absent, the parameter's text for the two text columns, its integer for the four integer columns; the read fails exactly when an integer column is given text that is not an integer |
| Items.TextReadsAsTheColumnType | server.js:153-162 | a string is stored verbatim in a text column; a number, or its printed text, reads back as that number; a string fails an integer column exactly when it is not an optional sign followed by digits |
| Items.TypedPriceIsStored | server.js:153-162 | a new-item body with the price typed as text ("40") answers 200 and stores the item with price 40 |
| Items.AddItem | server.js:141-165 | a missing or non-integer `userId` fails before any write; otherwise the user is registered as a loaner, gaining at most that id; the item is appended under the next id unless a column is mistyped; no other table changes |
| Items.UpdateRows | server.js:168-170 | every row keeps its id and position; rows with another id are unchanged; rows with the id get the new columns |
| Items.PatchItem | server.js:167-181 | the answer is 200 exactly when `itemId` is absent or an integer and every column reads; without an `itemId` nothing changes; with one, only the rows with that id are rewritten; no other table changes |
| Items.UpdateRowsKeepsValid | server.js:167-181 | an update keeps item ids unique and below the serial counter |
| Items.UpdateRowsIdempotent | server.js:167-181 | applying the same update twice equals applying it once |
| Items.HandlersKeepValid | server.js:141-181 | both item handlers keep the table keys: unique item ids below the counter, unique invoice ids, registries without duplicates |
| Loans.RegisterBorrower | server.js:196-204 | a non-integer borrower id fails before any write; otherwise the borrower is registered, gaining at most that id, and nothing else changes |
| Loans.CreateLoan | server.js:187-231 | the borrower is registered before validation; `insertNewInvoicedLoan(today, loaner, borrower, item)` is called exactly when all three ids are integers; the answer is 200 exactly when the call was made and succeeded, and every other answer to a request with an integer borrower is 400 |
| Loans.RejectedLoanStillRegisters | server.js:196-211 | a request rejected by validation answers 400 without calling the procedure, yet its borrower is now registered and no other id is |
| Loans.InsertBid | server.js:675-709 | the bidder is registered before validation; `insertNewBid` is called exactly on a valid request, which always answers 200 because the call's failure is only logged |
| Loans.AsBoolean | server.js:257-260 | a boolean flag reaches the procedure as itself, and a numeric flag that passed `isBoolean()` reaches it as true exactly when it is 1 |
| Loans.NumericFlagsReachTheProcedure | server.js:235-260 | for an existing invoice, 1 and 0 call the procedure with true and false, 1 exactly as true does, and 2 answers 400 with no call |
| Loans.ReturnLoan | server.js:233-271 | 400 on an invalid request; 404 exactly when the invoice is unknown; the procedure is called with the parsed flag exactly when the invoice exists; the handler writes nothing itself |
| Loans.RemoveInvoice | server.js:294-298 | the remaining rows are exactly those with another invoice id |
| Loans.DeleteLoan | server.js:273-308 | the handler always answers; 400 exactly on a non-integer id or a failing delete, 404 exactly when the invoice is unknown, and then nothing changes; on 200 exactly the rows with that id are gone and the table is smaller |
| Loans.DeleteRemovesExactlyThatInvoice | server.js:282-298 | with unique invoice ids a successful delete removes exactly one row, and what remains plus the removed row is the old table |
| Loans.LoanHandlersKeepValid | server.js:187-308 | creating, returning and deleting loans and inserting bids keep the table keys, for every `isReturned` flag: unique item ids below the counter, unique invoice ids, registries without duplicates |
| Loans.UnknownInvoiceIsNotFound | server.js:244-290 | for an unknown invoice both handlers answer 404, call nothing and change nothing |
| Loans.JoinRows | server.js:325-347 | a row is produced exactly for a loan on the requested side, the item it lent (same id, owned by the loaner) and the counterparty's account |
| Loans.SortNewestFirst | server.js:333 | `order by startDate desc`: the rows are a permutation of the input, with start dates non-increasing and NULL start dates first |
| Loans.RoleOf | server.js:324 | the loaner branch is taken exactly for the text 'true' |
| Loans.LoanHistory | server.js:310-355 | 400 with no rows on an invalid request; otherwise the joined rows of the chosen side, newest first |
| Loans.HistoryIsTheUsersSide | server.js:324-348 | every row is a loan the user lent (when `isLoaner` is 'true') or borrowed (otherwise) |
| Loans.HistoryIsComplete | server.js:324-348 | every loan on the requested side whose item and counterparty exist appears in the history |
| Loans.OneReadsBorrowerHistory | server.js:312-324 | `isLoaner=1` passes validation but yields the borrower history |
| Groups.LeaveGroup | server.js:512-540 | 400 on an invalid request or a database error, with nothing changed; on 200 the memberships left are exactly those not matching both the user and the group |
| Groups.LeaveRemovesExactlyTheMatches | server.js:526 | the remaining memberships keep their order, and with the removed ones they make up the old table row for row |
| Groups.LeaveKeepsValid | server.js:512-540 | leaving a group keeps the table keys |
| Groups.LeaveTwiceIsLeaveOnce | server.js:526 | leaving a group a second time changes nothing more |
| Auction.NextBid | client/src/Components/Advertisements.tsx:55-60 | with no highest bidder the next bid is the minimum price; with one it is the highest bid plus the minimum increase (a NULL bid counts as 0) |
| Auction.NextBidBeatsHighest | client/src/Components/Advertisements.tsx:57-60 | with a positive minimum increase the next bid is above the current highest bid |
| Auction.Render | client/src/Components/Advertisements.tsx:27-102 | rendering fails exactly when some advertisement's item is missing; otherwise the cards' advertisements are the order-preserving filter of the list by visibility, each card carrying its item's name and NextBid |
| Auction.ShownExactly | client/src/Components/Advertisements.tsx:40-46 | a listed advertisement is shown exactly when another user placed it and opening ≤ now ≤ closing, compared as instants |
| Auction.CardsComeFromTheList | client/src/Components/Advertisements.tsx:30-99 | there are no more cards than advertisements, and every card shows a listed advertisement of another user that is open now |
| BidForm.Submit | client/src/Components/Bid.tsx:28-35 | a submit has exactly one effect: placeBid(nextBid, advid) when nextBid ≥ nextPossibleBid, otherwise an alert naming the threshold |
| BidForm.Init | client/src/Components/Bid.tsx:5-12 | the threshold starts at the prop, and submitting the untouched default places that bid |
| BidForm.DidUpdate | client/src/Components/Bid.tsx:13-18 | a changed `nextBid` prop resets both fields to it; an unchanged prop leaves the state as it was |
| BidForm.HandleChange | client/src/Components/Bid.tsx:19-26 | editing the input named `nextBid` sets the bid and keeps the threshold; names other than the two state fields touch neither field |
| BidForm.Step | client/src/Components/Bid.tsx:13-35 | only new props change the props, and effects are only ever appended |
| BidForm.StepKeepsThreshold | client/src/Components/Bid.tsx:7-26 | one event keeps the threshold equal to the current prop |
| BidForm.ReplayKeepsThreshold | client/src/Components/Bid.tsx:7-26 | after any sequence of events the threshold equals the current prop |
| BidForm.NoBidBelowFloor | client/src/Components/Bid.tsx:28-35 | if no prop ever offers less than a floor, no bid below it is ever placed, whatever is typed |
| Decimal.NatToString | client/src/Components/Advertise.tsx:23-28 | a natural number's text is non-empty decimal digits with no leading zero |
| Decimal.ParseNatToString | client/src/Components/Advertise.tsx:23-28 | reading a number's text back gives the number |
| Decimal.DigitCounts | client/src/Components/Advertise.tsx:23-28 | numbers below 10 have one digit, 10 to 99 two, 1000 to 9999 four |
| Decimal.IntToString | client/src/Components/Advertise.tsx:19-29 | a non-negative integer's text is digits reading back as it; a negative one's is a minus sign before digits reading back as its magnitude |
| Decimal.ParseInt | server.js:153-162 | text reads as an integer exactly when it is an optional sign followed by at least one digit; unsigned text reads as a non-negative number |
| Decimal.ParseIntToString | server.js:153-162 | the text JavaScript prints for any integer reads back as that integer |
| DateStrings.Pad2 | client/src/Components/Advertise.tsx:23-28 | the padded text has at least two characters and reads back as the number; for 0 to 99 it is exactly two digits |
| DateStrings.Split | client/src/Components/Advertise.tsx:47-52 | `split('-')` yields at least one piece, and no piece contains a dash |
| DateStrings.JoinSplit | client/src/Components/Advertise.tsx:47-52 | joining the pieces with dashes gives back the text |
| DateStrings.SplitPrefix | client/src/Components/Advertise.tsx:47-52 | a dash-free prefix is glued onto the first piece |
| DateStrings.SplitJoin | client/src/Components/Advertise.tsx:47-52 | splitting dash-free fields joined with dashes gives back the fields |
| DateStrings.NextYear | client/src/Components/Advertise.tsx:19-29 | for a date the clock can give, the default has exactly three fields: the next year, then month and day as two digits each, each reading back as its number; with a four-digit next year it is 10 characters long |
| DateStrings.Reorder | client/src/Components/Advertise.tsx:47-52 | a three-field date comes out with its fields reversed; text without a dash comes out as "undefined-undefined-" followed by the text |
| DateStrings.ReorderTwice | client/src/Components/Advertise.tsx:47-52 | reordering a three-field date twice gives it back |
| AdvertiseForm.Init | client/src/Components/Advertise.tsx:16-37 | availability is the next-year default; minIncrease, adDuration and minPrice are 0; the description is the item's |
| AdvertiseForm.WithDescription | client/src/Components/Advertise.tsx:54-55 | only the description property changes |
| AdvertiseForm.Advertise | client/src/Components/Advertise.tsx:39-67 | a PATCH is sent exactly when the description differs from the item's, and it carries the edited description with every other property unchanged; the advertisement carries the reordered date and the form's and item's values |
| AdvertiseForm.UntouchedFormSubmission | client/src/Components/Advertise.tsx:16-56 | the untouched form sends no PATCH and sends the default date as day, month and year |
| AdvertiseForm.SentDateRoundTrips | client/src/Components/Advertise.tsx:47-52 | reordering the sent date again gives back the date the user picked |
| AdvertiseForm.AdvertisePatchIsLost | client/src/Components/Advertise.tsx:53-56 | as written: the PATCH the form sends leaves the database unchanged |
| AdvertiseForm.IntendedPatchBody | client/src/Components/Advertise.tsx:53-56 | the corrected body holds the row's id, fee and the edited description under the keys the handler reads |
| AdvertiseForm.IntendedPatchStoresDescription | client/src/Components/Advertise.tsx:53-56 | corrected: the PATCH succeeds, and the item's rows then hold the edited description and keep the fee |

## Left out

- Express routing, middleware (compression, helmet, morgan, cors, body-parser, request logging) and the static-file fallback: this is transport plumbing. `middleware.js` declares a schema that no route applies.
- The pg pool, HTTP transport and axios calls are I/O. Handlers are pure transitions on a `Db` value, and a client submit returns the request it would send.
- The stored procedures `insertNewInvoicedLoan`, `updateStatusOfLoanedItem`, `insertNewBid`, `insertNewAdvertisement`, `insertNewChooses`, `deleteChooses`, `insertNewInterestGroup` and `updateInterestGroup` are database objects defined outside `server.js`. A handler's call is recorded as a `ProcCall`, and a boolean parameter stands for the call's failure. What the procedures write is not modelled. In particular, the loan-overlap check, bid monotonicity and admin membership cannot be checked.
- The views `bigFanAward`, `enemy` and `popularItem` are database objects defined outside `server.js`, so they are not modelled.
- The schema is defined outside `server.js`. Apart from the registry keys below, foreign keys and other constraints are not modelled. A constraint failure on a delete is the `dbError` parameter. A failing insert other than an integer column given non-integer text, such as an item whose owner has no account, is not modelled.
- Other endpoints are outside the modelled core: `GET /users`, `POST /users/items`, the full item listing of `GET /items`, interest-group create/update/delete, `POST /joins`, the chooses, bids and advertisements reads, `/insertad`, events and reports.
- `loaner.userid` and `borrower.userid` are assumed to be NOT NULL keys. So an absent id passes the registry look-up and fails its insert, and the handler never replies. This is the one schema constraint the model relies on.
- Advertisement visibility: `now` and the advertisement dates are compared as instants. A date column stands for its midnight, so on the closing day the advertisement is hidden from just after 00:00. Time-of-day arithmetic is not modelled beyond that.
- Dates and clocks: moment.js formatting, the `MM-DD-YYYY` text passed for `$1`, wall-clock time and `.add(days)` are left out. Dates are integers, and "today" / "now" are parameters.
- JavaScript coercion in form state is left out: typed values are integers. For example, Bid's `<` compares a typed string with a number, and `placeBid` calls `parseInt`.
- Request values are reduced to `Int`, `Bool` or `Other`, and JSON bodies to integers and strings. JSON booleans, fractions, arrays and objects are not modelled.
- Tables.Value: `Int` and `Other` stand for canonical integer text and for text no validator or integer column accepts. Non-canonical integer text is not modelled. For example, "01" and "+1" pass `isInt()` but fail `isBoolean()`, so the source answers 400 where the model accepts a flag. Likewise " 7" fails `isInt()` but PostgreSQL reads it as 7, so the source registers borrower 7 and answers 400 where the model writes nothing.
- Decimal.ParseInt: leading and trailing white space, which PostgreSQL also accepts, is not modelled. The column widths are defined outside `server.js`, so integers are unbounded and an out-of-range value is not modelled as a failure.
- `Advertise.handleChange` and all rendering are left out: they only forward form fields. Auction.Render does not model the `userList` lookups, because a missing user only shows as an empty name.
- Component lifecycle details are left out: React's reconciliation, and `_.set` mutating the `item` prop in place.
- Concurrency between requests is left to the database and not modelled.
- Items.AvailableItems: the SQL has no `order by`, so the contract promises no row order.
- Loans.SortNewestFirst: rows with equal start dates have no promised order, in the SQL or in the contract.

## Findings

| source | as written | input that shows it | evidently intended | confidence | as-written member | corrected member |
|---|---|---|---|---|---|---|
| client/src/Components/Advertise.tsx:53-56 | the PATCH body is the item row with node-postgres's lower-case keys (`itemid`, `itemdescription`); `PATCH /add-item` reads `itemId` and `itemDesc`, so its `where itemid = NULL` matches no row | any item whose description the user edits before advertising | send the keys the handler reads, so the edited description is stored | high; not executed | AdvertiseForm.AdvertisePatchIsLost | AdvertiseForm.IntendedPatchStoresDescription |
| server.js:92-93 | `LoanerItem natural join InvoicedLoan` pairs rows on `loanFee` as well as `itemId`, so a loan whose fee differs from the item's current fee, or is NULL, never hides the item | item 0 with fee 5 has a lost loan at fee 5; the edit form PATCHes it without `loanFee` (fee becomes NULL); the lost item is listed again | pair a loan with its item on `itemId` alone | medium (the schema is defined outside `server.js`); not executed | Items.EditedLostItemListedAgain | Items.IntendedHidesEveryActiveLoan |

=== FILE: advertise.dfy ===
/** The advertise form (Advertise.tsx): its initial state and what a submit
    sends, the optional item PATCH and the advertisement request. */
module AdvertiseForm {
  import opened Wrappers
  import opened Tables
  import Items
  import DateStrings
  import Decimal

  /** The `item` prop: a LoanerItem row as node-postgres returns it, keyed
      by lower-case column names (`itemid`, `itemdescription`, …). */
  type Row = Items.Body

  /** `_.get(item, key)`: None is `undefined`. */
  function Get(row: Row, key: string): Option<Items.Json> {
    if key in row then Some(row[key]) else None
  }

  datatype FormState = FormState(
    availability: string,
    minIncrease: int,
    adDuration: int,
    minPrice: int,
    itemDescription: Option<Items.Json>)

  /** The constructor, on the date the clock gives (`year`, zero-based
      `monthIndex`, `day` of month): availability a year ahead, the three
      amounts 0, the description the item's own. */
  function Init(item: Row, year: int, monthIndex: int, day: int): (s: FormState)
    ensures s.minIncrease == 0 && s.adDuration == 0 && s.minPrice == 0
    ensures s.itemDescription == Get(item, "itemdescription")
    ensures s.availability == DateStrings.NextYear(year, monthIndex, day)
  {
    FormState(DateStrings.NextYear(year, monthIndex, day), 0, 0, 0, Get(item, "itemdescription"))
  }

  /** The body of `POST /insertad`. */
  datatype AdRequest = AdRequest(
    minPrice: int,
    duration: Option<Items.Json>,
    availability: string,
    minIncrease: int,
    adDuration: int,
    itemId: Option<Items.Json>,
    userId: Option<Items.Json>)

  /** What a submit sends: the PATCH body, if one is sent, and the advertisement. */
  datatype Submission = Submission(patch: Option<Items.Body>, ad: AdRequest)

  /** `_.set(item, 'itemdescription', d)`; JSON leaves an undefined property out. */
  function WithDescription(item: Row, d: Option<Items.Json>): (r: Row)
    ensures Get(r, "itemdescription") == d
    ensures forall k :: k != "itemdescription" ==> Get(r, k) == Get(item, k)
  {
    if d.Some? then item["itemdescription" := d.value] else item - {"itemdescription"}
  }

  /** `advertise`: the availability is sent as `DD-MM-YYYY`; the item is
      PATCHed, with the edited description, only when the description differs
      from the item's. */
  function Advertise(state: FormState, item: Row): (sub: Submission)
    ensures sub.patch.Some? <==> state.itemDescription != Get(item, "itemdescription")
    ensures sub.patch.Some? ==> Get(sub.patch.value, "itemdescription") == state.itemDescription
    ensures sub.patch.Some? ==> forall k :: k != "itemdescription" ==> Get(sub.patch.value, k) == Get(item, k)
    ensures sub.ad.availability == DateStrings.Reorder(state.availability)
    ensures sub.ad.minPrice == state.minPrice && sub.ad.minIncrease == state.minIncrease && sub.ad.adDuration == state.adDuration
    ensures sub.ad.duration == Get(item, "loanduration") && sub.ad.itemId == Get(item, "itemid") && sub.ad.userId == Get(item, "userid")
  {
    var patch := if state.itemDescription != Get(item, "itemdescription")
      then Some(WithDescription(item, state.itemDescription)) else None;
    Submission(patch, AdRequest(state.minPrice, Get(item, "loanduration"), DateStrings.Reorder(state.availability),
      state.minIncrease, state.adDuration, Get(item, "itemid"), Get(item, "userid")))
  }

  /** Submitting the untouched form sends no PATCH, and sends the default
      date as day, month, year: two digits, two digits, the next year. */
  lemma UntouchedFormSubmission(item: Row, year: int, monthIndex: int, day: int)
    requires year + 1 >= 0 && 0 <= monthIndex <= 11 && 1 <= day <= 31
    ensures Advertise(Init(item, year, monthIndex, day), item).patch.None?
    ensures DateStrings.Split(Advertise(Init(item, year, monthIndex, day), item).ad.availability)
      == [DateStrings.Pad2(day), DateStrings.Pad2(monthIndex + 1), Decimal.NatToString(year + 1)]
  {
    var date := DateStrings.NextYear(year, monthIndex, day);
    assert |DateStrings.Split(date)| == 3;
  }

  /** The date sent is the form's date read backwards: reordering it again
      restores what the user picked, whenever that had three fields. */
  lemma SentDateRoundTrips(state: FormState, item: Row)
    requires |DateStrings.Split(state.availability)| == 3
    ensures DateStrings.Reorder(Advertise(state, item).ad.availability) == state.availability
  {
    DateStrings.ReorderTwice(state.availability);
  }

  // ---------------------------------------------------------------------
  // The PATCH body's keys
  // ---------------------------------------------------------------------

  /** As written: the PATCH body is the row itself, with lower-case keys,
      while `PATCH /add-item` reads `itemId`; that is `undefined`, the
      update's `where itemid = NULL` matches no row, and the edited
      description is never stored. */
  lemma AdvertisePatchIsLost(db: Db, state: FormState, item: Row)
    requires "itemId" !in item
    requires Advertise(state, item).patch.Some?
    ensures Items.PatchItem(db, Advertise(state, item).patch.value).db == db
  {
    assert Get(Advertise(state, item).patch.value, "itemId") == Get(item, "itemId");
  }

  /** Copies `row[from]`, when present, to `body[to]`. */
  function Carry(body: Items.Body, to: string, from: string, row: Row): Items.Body {
    if from in row then body[to := row[from]] else body
  }

  /** The body the handler can read: the row's values under its camel-case
      keys, and the edited description under `itemDesc`. */
  function IntendedPatchBody(item: Row, d: Option<Items.Json>): (body: Items.Body)
    ensures "itemId" in body <==> "itemid" in item
    ensures "itemId" in body ==> body["itemId"] == item["itemid"]
    ensures "itemDesc" in body <==> d.Some?
    ensures d.Some? ==> body["itemDesc"] == d.value
    ensures "loanFee" in body <==> "loanfee" in item
    ensures "loanFee" in body ==> body["loanFee"] == item["loanfee"]
  {
    var b := Carry(map[], "itemId", "itemid", item);
    var b := Carry(b, "itemName", "itemname", item);
    var b := Carry(b, "itemValue", "value", item);
    var b := Carry(b, "userId", "userid", item);
    var b := Carry(b, "loanFee", "loanfee", item);
    var b := Carry(b, "loanDuration", "loanduration", item);
    if d.Some? then b["itemDesc" := d.value] else b
  }

  /** A row whose columns have the kinds the table declares. */
  predicate WellTyped(item: Row) {
    && ("itemid" in item ==> item["itemid"].JInt?)
    && ("itemname" in item ==> item["itemname"].JStr?)
    && ("value" in item ==> item["value"].JInt?)
    && ("userid" in item ==> item["userid"].JInt?)
    && ("loanfee" in item ==> item["loanfee"].JInt?)
    && ("loanduration" in item ==> item["loanduration"].JInt?)
  }

  /** Corrected: with the camel-case body the PATCH reaches the item's row,
      stores the edited description there, and keeps the row's fee. */
  lemma IntendedPatchStoresDescription(db: Db, item: Row, d: string)
    requires WellTyped(item) && "itemid" in item
    ensures Items.PatchItem(db, IntendedPatchBody(item, Some(Items.JStr(d)))).status == Ok
    ensures forall i :: 0 <= i < |db.items| && db.items[i].itemId == item["itemid"].n ==>
      var row := Items.PatchItem(db, IntendedPatchBody(item, Some(Items.JStr(d)))).db.items[i];
      row.fields.itemDescription == Some(d) &&
      row.fields.loanFee == (if "loanfee" in item then Some(item["loanfee"].n) else None)
  {
    var body := IntendedPatchBody(item, Some(Items.JStr(d)));
    assert Items.ReadItemFields(body).Some?;
  }
}

=== FILE: auction.dfy ===
/** The advertisement list of the client (Advertisements.tsx): which
    advertisements a user is shown and the next bid offered on each. */
module Auction {
  import opened Wrappers
  import opened Seqs

  /** An Advertisement row; `highestBid` and `highestBidder` are NULL until someone bids. */
  datatype Advertisement = Advertisement(
    advId: int,
    itemId: int,
    advertiser: int,
    minimumPrice: int,
    minimumIncrease: int,
    openingDate: int,
    closingDate: int,
    highestBid: Option<int>,
    highestBidder: Option<int>)

  /** The "Next Possible Bid": the minimum price while nobody has bid, the
      highest bid plus the minimum increase once somebody has. JavaScript's
      `null + n` is `n`, so a bidder without a bid amount counts as 0. */
  function NextBid(ad: Advertisement): (r: int)
    ensures ad.highestBidder.None? ==> r == ad.minimumPrice
    ensures ad.highestBidder.Some? ==> r == ad.highestBid.GetOr(0) + ad.minimumIncrease
  {
    if ad.highestBidder.Some? then ad.highestBid.GetOr(0) + ad.minimumIncrease else ad.minimumPrice
  }

  /** With a positive minimum increase the next bid strictly beats the current highest bid. */
  lemma NextBidBeatsHighest(ad: Advertisement)
    requires ad.highestBidder.Some? && ad.highestBid.Some? && ad.minimumIncrease > 0
    ensures NextBid(ad) > ad.highestBid.value
  {
  }

  /** The render loop skips an advertisement placed by the current user, one
      whose bidding has not opened and one that has closed; both ends of the
      period are inclusive. `now` and the two dates are instants on one
      time scale (moment timestamps), so a closing bound stored as a date
      stands for that day's midnight: on the closing day itself the
      advertisement is already hidden. */
  predicate Shown(ad: Advertisement, currentUser: int, now: int) {
    !(currentUser == ad.advertiser || now < ad.openingDate || now > ad.closingDate)
  }

  function ShownTo(currentUser: int, now: int): Advertisement -> bool {
    (ad: Advertisement) => Shown(ad, currentUser, now)
  }

  /** A rendered card: the advertisement, its item's name and the Bid form's `nextBid`. */
  datatype Card = Card(ad: Advertisement, itemName: string, nextBid: int)

  function Ads(cards: seq<Card>): (r: seq<Advertisement>)
    ensures |r| == |cards|
    ensures forall i :: 0 <= i < |cards| ==> r[i] == cards[i].ad
  {
    seq(|cards|, i requires 0 <= i < |cards| => cards[i].ad)
  }

  /** `render()`: one card per shown advertisement, in list order. The item
      name is looked up before the visibility test, so an advertisement whose
      item is missing from `items` throws, for the whole list (None). */
  function Render(ads: seq<Advertisement>, items: map<int, string>, currentUser: int, now: int): (r: Option<seq<Card>>)
    ensures r.Some? <==> forall i :: 0 <= i < |ads| ==> ads[i].itemId in items
    ensures r.Some? ==> Ads(r.value) == Filter(ShownTo(currentUser, now), ads)
    ensures r.Some? ==> forall c :: c in r.value ==>
      c.ad.itemId in items && c.itemName == items[c.ad.itemId] && c.nextBid == NextBid(c.ad)
  {
    if |ads| == 0 then Some([])
    else
      var ad := ads[0];
      var rest := Render(ads[1..], items, currentUser, now);
      if ad.itemId !in items || rest.None? then None
      else if Shown(ad, currentUser, now) then
        assert Ads([Card(ad, items[ad.itemId], NextBid(ad))] + rest.value) == [ad] + Ads(rest.value);
        Some([Card(ad, items[ad.itemId], NextBid(ad))] + rest.value)
      else Some(rest.value)
  }

  /** Exactly the advertisements of other users whose bidding period covers
      `now` are shown: an own advertisement never is. */
  lemma ShownExactly(ads: seq<Advertisement>, items: map<int, string>, currentUser: int, now: int, ad: Advertisement)
    requires Render(ads, items, currentUser, now).Some?
    requires ad in ads
    ensures ad in Ads(Render(ads, items, currentUser, now).value) <==>
      ad.advertiser != currentUser && ad.openingDate <= now <= ad.closingDate
  {
  }

  /** Every card offers the amount NextBid computes and nothing is shown that
      was not in the list: rendering never invents or reorders advertisements. */
  lemma CardsComeFromTheList(ads: seq<Advertisement>, items: map<int, string>, currentUser: int, now: int)
    requires Render(ads, items, currentUser, now).Some?
    ensures |Render(ads, items, currentUser, now).value| <= |ads|
    ensures forall c :: c in Render(ads, items, currentUser, now).value ==>
      c.ad in ads && c.ad.advertiser != currentUser && c.ad.openingDate <= now <= c.ad.closingDate
  {
    var cards := Render(ads, items, currentUser, now).value;
    forall c | c in cards
      ensures c.ad in ads && c.ad.advertiser != currentUser && c.ad.openingDate <= now <= c.ad.closingDate
    {
      var i :| 0 <= i < |cards| && cards[i] == c;
      assert Ads(cards)[i] == c.ad;
      assert c.ad in Filter(ShownTo(currentUser, now), ads);
    }
  }
}

=== FILE: bid.dfy ===
/** The Bid form (Bid.tsx): a small state machine over its two state fields,
    driven by new props, typing in its one input and submitting. */
module BidForm {

  datatype BidProps = BidProps(advId: int, nextBid: int)

  /** `nextBid` is what the input shows; `nextPossibleBid` the threshold. */
  datatype BidState = BidState(nextBid: int, nextPossibleBid: int)

  /** The `name` of the form's only input. */
  const InputName: string := "nextBid"

  /** What a submit does: an alert naming the threshold, or one `placeBid` call. */
  datatype Effect = Alert(threshold: int) | PlaceBid(price: int, advId: int)

  /** `handleSubmit`: a bid below the threshold alerts; any other bid is placed once. */
  function Submit(state: BidState, props: BidProps): (r: seq<Effect>)
    ensures |r| == 1
    ensures r[0].PlaceBid? <==> state.nextBid >= state.nextPossibleBid
    ensures r[0].PlaceBid? ==> r[0] == PlaceBid(state.nextBid, props.advId)
    ensures r[0].Alert? ==> r[0].threshold == state.nextPossibleBid
  {
    if state.nextBid < state.nextPossibleBid then [Alert(state.nextPossibleBid)]
    else [PlaceBid(state.nextBid, props.advId)]
  }

  /** The constructor: both fields start at the `nextBid` prop, so the
      untouched default bid is accepted as it stands. */
  function Init(props: BidProps): (s: BidState)
    ensures Submit(s, props) == [PlaceBid(props.nextBid, props.advId)]
    ensures s.nextPossibleBid == props.nextBid
  {
    BidState(props.nextBid, props.nextBid)
  }

  /** `componentDidUpdate`: a changed `nextBid` prop resets both fields; an
      unchanged one leaves the state alone, typed bid included. */
  function DidUpdate(oldProps: BidProps, props: BidProps, state: BidState): (s: BidState)
    ensures oldProps.nextBid != props.nextBid ==> s == Init(props)
    ensures oldProps.nextBid == props.nextBid ==> s == state
  {
    if oldProps.nextBid != props.nextBid then BidState(props.nextBid, props.nextBid) else state
  }

  /** `handleChange`: `setState({[name]: value})`. A name other than the two
      fields adds an unrelated key, which the form never reads. */
  function HandleChange(state: BidState, name: string, value: int): (s: BidState)
    ensures name == InputName ==> s.nextBid == value && s.nextPossibleBid == state.nextPossibleBid
    ensures name != "nextBid" && name != "nextPossibleBid" ==> s == state
  {
    if name == "nextBid" then state.(nextBid := value)
    else if name == "nextPossibleBid" then state.(nextPossibleBid := value)
    else state
  }

  /** What can happen to a mounted form: its parent re-renders it with new
      props, the user types into the input, or the user submits. */
  datatype Event = NewProps(props: BidProps) | Type(value: int) | Press

  /** The form's props, state, and every effect so far. */
  datatype Run = Run(props: BidProps, state: BidState, effects: seq<Effect>)

  function Step(run: Run, e: Event): (r: Run)
    ensures e.NewProps? ==> r.props == e.props
    ensures !e.NewProps? ==> r.props == run.props
    ensures run.effects <= r.effects
  {
    match e
    case NewProps(p) => Run(p, DidUpdate(run.props, p, run.state), run.effects)
    case Type(v) => Run(run.props, HandleChange(run.state, InputName, v), run.effects)
    case Press => Run(run.props, run.state, run.effects + Submit(run.state, run.props))
  }

  function Replay(run: Run, events: seq<Event>): Run
    decreases |events|
  {
    if |events| == 0 then run else Replay(Step(run, events[0]), events[1..])
  }

  /** The form's invariant: the threshold is always the current `nextBid` prop. */
  ghost predicate ThresholdIsProp(run: Run) {
    run.state.nextPossibleBid == run.props.nextBid
  }

  lemma StepKeepsThreshold(run: Run, e: Event)
    requires ThresholdIsProp(run)
    ensures ThresholdIsProp(Step(run, e))
  {
  }

  /** Typing never moves the threshold, and new props always reset it, so
      the invariant holds after any sequence of events. */
  lemma {:induction false} ReplayKeepsThreshold(run: Run, events: seq<Event>)
    requires ThresholdIsProp(run)
    ensures ThresholdIsProp(Replay(run, events))
    decreases |events|
  {
    if |events| > 0 {
      StepKeepsThreshold(run, events[0]);
      ReplayKeepsThreshold(Step(run, events[0]), events[1..]);
    }
  }

  /** Every bid placed so far is at least `floor`. */
  ghost predicate BidsAtLeast(effects: seq<Effect>, floor: int) {
    forall i :: 0 <= i < |effects| && effects[i].PlaceBid? ==> effects[i].price >= floor
  }

  /** Every prop the parent passes offers at least `floor`. */
  ghost predicate PropsAtLeast(events: seq<Event>, floor: int) {
    forall i :: 0 <= i < |events| && events[i].NewProps? ==> events[i].props.nextBid >= floor
  }

  /** If the offered next bid never falls below `floor`, no bid below `floor`
      is ever placed, whatever the user types in between. */
  lemma {:induction false} NoBidBelowFloor(run: Run, events: seq<Event>, floor: int)
    requires ThresholdIsProp(run) && run.props.nextBid >= floor
    requires BidsAtLeast(run.effects, floor)
    requires PropsAtLeast(events, floor)
    ensures BidsAtLeast(Replay(run, events).effects, floor)
    decreases |events|
  {
    if |events| > 0 {
      var next := Step(run, events[0]);
      StepKeepsThreshold(run, events[0]);
      assert PropsAtLeast(events[1..], floor) by {
        forall i | 0 <= i < |events[1..]| && events[1..][i].NewProps?
          ensures events[1..][i].props.nextBid >= floor
        {
          assert events[1..][i] == events[i + 1];
        }
      }
      if events[0].NewProps? {
        assert events[0].props.nextBid >= floor;
      }
      NoBidBelowFloor(next, events[1..], floor);
    }
  }
}

=== FILE: datestrings.dfy ===
/** The string handling of the advertise form (Advertise.tsx): JavaScript's
    decimal `toString`, the two-digit padding of month and day, `split('-')`,
    and the reordering of a `YYYY-MM-DD` date into `DD-MM-YYYY`. */
module DateStrings {

  import opened Decimal

  /** `x.toString().length < 2 ? '0' + x : x`: a one-character number gets
      a leading zero. The text is at least two characters, reads back as the
      number, and is exactly two for 0 to 99. */
  function Pad2(n: int): (s: string)
    ensures |s| >= 2
    ensures n >= 0 ==> AllDigits(s) && ParseNat(s) == n
    ensures 0 <= n <= 99 ==> |s| == 2
  {
    var t := IntToString(n);
    TextLength(n);
    if |t| < 2 then
      ParseNatLeadingZero(t);
      "0" + t
    else t
  }

  /** One character for 0 to 9, two for 10 to 99, and at least two for a negative number. */
  lemma TextLength(n: int)
    ensures 0 <= n < 10 ==> |IntToString(n)| == 1
    ensures 10 <= n < 100 ==> |IntToString(n)| == 2
    ensures n < 0 ==> |IntToString(n)| >= 2
  {
    if n >= 0 {
      DigitCounts(n);
    }
  }

  // ---------------------------------------------------------------------
  // split('-') and its inverse
  // ---------------------------------------------------------------------

  predicate NoDash(s: string) {
    '-' !in s
  }

  /** `s.split('-')`: the text between dashes; never empty, "" for "". */
  function Split(s: string): (r: seq<string>)
    ensures |r| >= 1
    ensures forall i :: 0 <= i < |r| ==> NoDash(r[i])
  {
    if |s| == 0 then [""]
    else
      var rest := Split(s[1..]);
      if s[0] == '-' then [""] + rest
      else [[s[0]] + rest[0]] + rest[1..]
  }

  /** `fields.join('-')`. */
  function Join(fields: seq<string>): string
    requires |fields| >= 1
  {
    if |fields| == 1 then fields[0] else fields[0] + "-" + Join(fields[1..])
  }

  lemma JoinConsFirst(a: string, b: string, tail: seq<string>)
    ensures Join([a + b] + tail) == a + Join([b] + tail)
  {
    if |tail| > 0 {
      assert ([a + b] + tail)[1..] == tail && ([b] + tail)[1..] == tail;
    }
  }

  /** Joining the pieces `split` cut gives back the text. */
  lemma {:induction false} JoinSplit(s: string)
    ensures Join(Split(s)) == s
  {
    if |s| > 0 {
      var rest := Split(s[1..]);
      JoinSplit(s[1..]);
      if s[0] == '-' {
        assert ([""] + rest)[1..] == rest;
      } else {
        assert [rest[0]] + rest[1..] == rest;
        JoinConsFirst([s[0]], rest[0], rest[1..]);
      }
      assert s == [s[0]] + s[1..];
    }
  }

  /** Splitting text that starts with a dash-free prefix glues the prefix to the first piece. */
  lemma {:induction false} SplitPrefix(a: string, t: string)
    requires NoDash(a)
    ensures Split(a + t) == [a + Split(t)[0]] + Split(t)[1..]
  {
    if |a| > 0 {
      var rest := a[1..];
      assert forall c :: c in rest ==> c in a;
      assert a[0] in a;
      SplitPrefix(rest, t);
      var parts := Split(t);
      assert (a + t)[0] == a[0] && (a + t)[1..] == rest + t;
      var tailParts := Split(rest + t);
      assert tailParts == [rest + parts[0]] + parts[1..];
      assert tailParts[0] == rest + parts[0] && tailParts[1..] == parts[1..];
      assert Split(a + t) == [[a[0]] + tailParts[0]] + tailParts[1..];
      assert a == [a[0]] + rest;
      assert [a[0]] + (rest + parts[0]) == a + parts[0];
    } else {
      var parts := Split(t);
      assert a + t == t && a + parts[0] == parts[0];
      assert [parts[0]] + parts[1..] == parts;
    }
  }

  /** Splitting dash-free fields joined with dashes gives back the fields. */
  lemma {:induction false} SplitJoin(fields: seq<string>)
    requires |fields| >= 1
    requires forall i :: 0 <= i < |fields| ==> NoDash(fields[i])
    ensures Split(Join(fields)) == fields
  {
    if |fields| == 1 {
      SplitPrefix(fields[0], "");
      assert fields[0] + "" == fields[0];
    } else {
      var tail := Join(fields[1..]);
      assert forall i :: 0 <= i < |fields[1..]| ==> fields[1..][i] == fields[i + 1];
      SplitJoin(fields[1..]);
      var dashed := Split("-" + tail);
      assert dashed == [""] + Split(tail) by {
        assert ("-" + tail)[0] == '-' && ("-" + tail)[1..] == tail;
      }
      assert dashed[0] == "" && dashed[1..] == fields[1..];
      SplitPrefix(fields[0], "-" + tail);
      assert Join(fields) == fields[0] + ("-" + tail);
      assert fields[0] + "" == fields[0];
      assert fields == [fields[0]] + fields[1..];
    }
  }

  // ---------------------------------------------------------------------
  // The default availability date and the field reordering
  // ---------------------------------------------------------------------

  /** Three dash-free fields joined with dashes split back into those fields. */
  lemma SplitThree(a: string, b: string, c: string)
    requires NoDash(a) && NoDash(b) && NoDash(c)
    ensures Split(a + "-" + b + "-" + c) == [a, b, c]
  {
    var fields := [a, b, c];
    assert fields[1..] == [b, c] && fields[1..][1..] == [c];
    assert Join(fields[1..]) == b + "-" + c;
    assert Join(fields) == a + "-" + (b + "-" + c);
    assert a + "-" + (b + "-" + c) == a + "-" + b + "-" + c;
    SplitJoin(fields);
  }

  /** Digits contain no dash. */
  lemma DigitsHaveNoDash(s: string)
    requires AllDigits(s)
    ensures NoDash(s)
  {
    assert forall i :: 0 <= i < |s| ==> s[i] != '-';
  }

  /** The text of a date the clock can give (a year from 0 on, month index 0
      to 11, day 1 to 31) splits into the year's digits and the padded month
      and day. */
  lemma DateText(year: int, monthIndex: int, day: int)
    ensures year + 1 >= 0 && 0 <= monthIndex <= 11 && 1 <= day <= 31 ==>
      Split(IntToString(year + 1) + "-" + Pad2(monthIndex + 1) + "-" + Pad2(day))
        == [NatToString(year + 1), Pad2(monthIndex + 1), Pad2(day)]
    ensures 1000 <= year + 1 <= 9999 ==> |IntToString(year + 1)| == 4
  {
    var y, m, d := IntToString(year + 1), Pad2(monthIndex + 1), Pad2(day);
    if year + 1 >= 0 {
      DigitCounts(year + 1);
      ParseNatToString(year + 1);
      assert y == NatToString(year + 1);
      DigitsHaveNoDash(y);
      if 0 <= monthIndex <= 11 && 1 <= day <= 31 {
        DigitsHaveNoDash(m);
        DigitsHaveNoDash(d);
        SplitThree(y, m, d);
      }
    }
  }

  /** The constructor's default availability: next year, then the month
      (`getMonth() + 1`) and the day of month, both padded, dash-separated.
      For a date the clock can give it has exactly three fields, the next
      year and the month and day as two digits each, each reading back as
      its number; with a four-digit next year it is ten characters long. */
  function NextYear(year: int, monthIndex: int, day: int): (s: string)
    ensures year + 1 >= 0 && 0 <= monthIndex <= 11 && 1 <= day <= 31 ==>
      && Split(s) == [NatToString(year + 1), Pad2(monthIndex + 1), Pad2(day)]
      && AllDigits(Split(s)[0]) && ParseNat(Split(s)[0]) == year + 1
      && |Split(s)[1]| == 2 && AllDigits(Split(s)[1]) && ParseNat(Split(s)[1]) == monthIndex + 1
      && |Split(s)[2]| == 2 && AllDigits(Split(s)[2]) && ParseNat(Split(s)[2]) == day
    ensures 1000 <= year + 1 <= 9999 && 0 <= monthIndex <= 11 && 1 <= day <= 31 ==> |s| == 10
  {
    DateText(year, monthIndex, day);
    ParseNatToString(if year + 1 >= 0 then year + 1 else 0);
    IntToString(year + 1) + "-" + Pad2(monthIndex + 1) + "-" + Pad2(day)
  }

  /** `split('-')[i]`, which is `undefined` (written "undefined") past the end. */
  function FieldOrUndefined(parts: seq<string>, i: nat): string {
    if i < |parts| then parts[i] else "undefined"
  }

  /** `s.split('-')[2] + '-' + s.split('-')[1] + '-' + s.split('-')[0]`: a
      three-field date comes out with its fields in reverse order; text
      without a dash is one field, so the two missing fields print as
      "undefined". */
  function Reorder(s: string): (r: string)
    ensures |Split(s)| == 3 ==> Split(r) == [Split(s)[2], Split(s)[1], Split(s)[0]]
    ensures NoDash(s) ==> r == "undefined-undefined-" + s
  {
    var parts := Split(s);
    ReorderedText(s);
    FieldOrUndefined(parts, 2) + "-" + FieldOrUndefined(parts, 1) + "-" + FieldOrUndefined(parts, 0)
  }

  lemma ReorderedText(s: string)
    ensures var p := Split(s);
      var r := FieldOrUndefined(p, 2) + "-" + FieldOrUndefined(p, 1) + "-" + FieldOrUndefined(p, 0);
      && (|p| == 3 ==> Split(r) == [p[2], p[1], p[0]])
      && (NoDash(s) ==> r == "undefined-undefined-" + s)
  {
    var p := Split(s);
    if |p| == 3 {
      SplitThree(p[2], p[1], p[0]);
    }
    if NoDash(s) {
      SplitPrefix(s, "");
      assert s + "" == s;
    }
  }

  /** Reordering a three-field date twice gives the date back. */
  lemma ReorderTwice(s: string)
    requires |Split(s)| == 3
    ensures Reorder(Reorder(s)) == s
  {
    var p := Split(s);
    var r := [p[0], p[1], p[2]];
    assert r == p;
    assert r[1..] == [p[1], p[2]] && r[1..][1..] == [p[2]];
    assert Join(r[1..]) == p[1] + "-" + p[2];
    assert Join(r) == p[0] + "-" + (p[1] + "-" + p[2]);
    assert p[0] + "-" + (p[1] + "-" + p[2]) == p[0] + "-" + p[1] + "-" + p[2];
    JoinSplit(s);
  }
}

=== FILE: decimal.dfy ===
/** Decimal text: JavaScript's `toString()` of an integer, and the integer
    text PostgreSQL accepts when a statement parameter (which node-postgres
    always sends as text) is read into an integer column. */
module Decimal {
  import opened Wrappers

  predicate IsDigit(c: char) {
    '0' <= c <= '9'
  }

  predicate AllDigits(s: string) {
    forall i :: 0 <= i < |s| ==> IsDigit(s[i])
  }

  function DigitChar(d: int): (c: char)
    requires 0 <= d <= 9
    ensures IsDigit(c)
  {
    (('0' as int) + d) as char
  }

  function DigitValue(c: char): (d: int)
    requires IsDigit(c)
    ensures 0 <= d <= 9
  {
    (c as int) - ('0' as int)
  }

  /** `toString()` of a natural number: decimal digits, no leading zero. */
  function NatToString(n: nat): (s: string)
    ensures |s| >= 1
    ensures AllDigits(s)
    ensures |s| > 1 ==> s[0] != '0'
  {
    if n < 10 then [DigitChar(n)] else NatToString(n / 10) + [DigitChar(n % 10)]
  }

  /** The number a string of decimal digits denotes. */
  function ParseNat(s: string): nat
    requires AllDigits(s)
  {
    if |s| == 0 then 0 else ParseNat(s[..|s| - 1]) * 10 + DigitValue(s[|s| - 1])
  }

  /** Reading back what `toString` wrote gives the number. */
  lemma {:induction false} ParseNatToString(n: nat)
    ensures ParseNat(NatToString(n)) == n
  {
    if n >= 10 {
      var s := NatToString(n);
      assert s[..|s| - 1] == NatToString(n / 10);
      ParseNatToString(n / 10);
    }
  }

  /** A leading zero does not change the number digits denote. */
  lemma {:induction false} ParseNatLeadingZero(t: string)
    requires AllDigits(t)
    ensures AllDigits("0" + t) && ParseNat("0" + t) == ParseNat(t)
  {
    var s := "0" + t;
    if |t| > 0 {
      assert s[..|s| - 1] == "0" + t[..|t| - 1];
      assert s[|s| - 1] == t[|t| - 1];
      ParseNatLeadingZero(t[..|t| - 1]);
    } else {
      assert s[..|s| - 1] == "";
    }
  }

  /** The digit counts the date fields need: one digit below 10, two below 100, four from 1000 to 9999. */
  lemma DigitCounts(n: nat)
    ensures n < 10 ==> |NatToString(n)| == 1
    ensures 10 <= n < 100 ==> |NatToString(n)| == 2
    ensures 1000 <= n < 10000 ==> |NatToString(n)| == 4
  {
    if 1000 <= n < 10000 {
      assert |NatToString(n / 1000)| == 1;
      assert |NatToString(n / 100)| == |NatToString(n / 100 / 10)| + 1;
      assert n / 100 / 10 == n / 1000;
      assert n / 10 / 10 == n / 100;
    }
  }

  /** `toString()` of any integer: the digits of its magnitude, after a
      minus sign when it is negative. */
  function IntToString(n: int): (s: string)
    ensures n >= 0 ==> |s| >= 1 && AllDigits(s) && ParseNat(s) == n
    ensures n < 0 ==> |s| >= 2 && s[0] == '-' && AllDigits(s[1..]) && ParseNat(s[1..]) == -n
  {
    if n < 0 then
      var t := NatToString(-n);
      ParseNatToString(-n);
      assert ("-" + t)[1..] == t;
      "-" + t
    else
      ParseNatToString(n);
      NatToString(n)
  }

  /** PostgreSQL's reading of text as an integer: an optional sign and at
      least one decimal digit; anything else is rejected. */
  function ParseInt(s: string): (r: Option<int>)
    ensures r.Some? <==> (|s| >= 1 &&
      forall i :: 0 <= i < |s| ==> IsDigit(s[i]) || (i == 0 && |s| >= 2 && (s[i] == '-' || s[i] == '+')))
    ensures r.Some? && s[0] != '-' ==> r.value >= 0
  {
    if |s| >= 2 && (s[0] == '-' || s[0] == '+') && AllDigits(s[1..]) then
      var m: int := ParseNat(s[1..]);
      if s[0] == '-' then Some(-m) else Some(m)
    else if |s| >= 1 && AllDigits(s) then Some(ParseNat(s))
    else
      assert !(|s| >= 2 && (s[0] == '-' || s[0] == '+') && AllDigits(s[1..]));
      None
  }

  /** The text JavaScript prints for an integer is read back by PostgreSQL as that integer. */
  lemma ParseIntToString(n: int)
    ensures ParseInt(IntToString(n)) == Some(n)
  {
    var s := IntToString(n);
    if n >= 0 {
      assert IsDigit(s[0]);
    }
  }
}

=== FILE: groups.dfy ===
/** Interest-group membership: `DELETE /joins`, a member leaving a group (server.js). */
module Groups {
  import opened Wrappers
  import opened Seqs
  import opened Tables

  /** The rows `where userId = u and groupName = g` selects, and those it keeps. */
  function MembershipOf(u: UserId, g: string): Membership -> bool {
    (m: Membership) => m.userId == u && m.groupName == g
  }

  function OtherMembership(u: UserId, g: string): Membership -> bool {
    (m: Membership) => !(m.userId == u && m.groupName == g)
  }

  /** `DELETE /joins?userId=…&groupName=…`: validation (400), then the delete;
      a database error (a trigger refusing the row) answers 400 and changes
      nothing. `groupName` is None when the query has no string for it. */
  function LeaveGroup(db: Db, userId: Value, groupName: Option<string>, dbError: bool): (r: Reply)
    ensures r.call.None?
    ensures r.db == db.(joins := r.db.joins)
    ensures r.status == Ok <==> IsInt(userId) && groupName.Some? && !dbError
    ensures r.status != Ok ==> r.status == BadRequest && r.db == db
    ensures r.status == Ok ==> forall m :: m in r.db.joins <==>
      m in db.joins && !(m.userId == userId.n && m.groupName == groupName.value)
  {
    if !(IsInt(userId) && groupName.Some?) || dbError then Reply(db, BadRequest, None)
    else Reply(db.(joins := Filter(OtherMembership(userId.n, groupName.value), db.joins)), Ok, None)
  }

  /** Leaving removes exactly the matching memberships: what remains plus what
      matched is the old table, row for row, and what remains keeps its order. */
  lemma LeaveRemovesExactlyTheMatches(db: Db, u: UserId, g: string)
    ensures LeaveGroup(db, Int(u), Some(g), false).db.joins == Filter(OtherMembership(u, g), db.joins)
    ensures multiset(LeaveGroup(db, Int(u), Some(g), false).db.joins) + multiset(Filter(MembershipOf(u, g), db.joins))
      == multiset(db.joins)
  {
    FilterSplits(OtherMembership(u, g), MembershipOf(u, g), db.joins);
  }

  /** Leaving a group touches only the Joins table, so the schema's keys survive. */
  lemma LeaveKeepsValid(db: Db, userId: Value, groupName: Option<string>, dbError: bool)
    requires Valid(db)
    ensures Valid(LeaveGroup(db, userId, groupName, dbError).db)
  {
  }

  /** Leaving a group a second time changes nothing more. */
  lemma LeaveTwiceIsLeaveOnce(db: Db, u: UserId, g: string)
    ensures LeaveGroup(LeaveGroup(db, Int(u), Some(g), false).db, Int(u), Some(g), false)
      == LeaveGroup(db, Int(u), Some(g), false)
  {
    FilterIdempotent(OtherMembership(u, g), db.joins);
  }
}

=== FILE: items.dfy ===
/** Items: the available-items listing of `GET /items` and the two
    `/add-item` handlers (server.js). */
module Items {
  import opened Wrappers
  import opened Seqs
  import opened Tables
  import opened Decimal

  // ---------------------------------------------------------------------
  // Available items
  // ---------------------------------------------------------------------

  /** The columns on which the availability sub-query pairs a LoanerItem row
      with an InvoicedLoan row. Both tables have `itemId` and `loanFee`, so
      the `natural join` as written pairs on both; `ItemIdOnly` is the
      pairing the query evidently means. */
  datatype JoinKey = NaturalJoin | ItemIdOnly

  /** SQL `=` on nullable integers: true only when neither side is NULL. */
  predicate SqlEq(a: Option<int>, b: Option<int>) {
    a.Some? && b.Some? && a.value == b.value
  }

  predicate Paired(key: JoinKey, item: LoanerItem, loan: InvoicedLoan) {
    match key
    case NaturalJoin => item.itemId == loan.itemId && SqlEq(item.fields.loanFee, loan.loanFee)
    case ItemIdOnly => item.itemId == loan.itemId
  }

  /** `IL2.isReturned is false or today between IL2.startDate and IL2.endDate`:
      a lost item, or a loan whose period (both ends inclusive) covers today.
      `between` with a NULL bound is not true, so a loan without both dates
      blocks only when it is lost. */
  predicate Blocking(loan: InvoicedLoan, today: Date) {
    || loan.isReturned == Lost
    || (loan.startDate.Some? && loan.endDate.Some? && loan.startDate.value <= today <= loan.endDate.value)
  }

  /** The correlated `not exists` sub-query finds a row for `itemId`. */
  predicate OnLoan(key: JoinKey, items: seq<LoanerItem>, loans: seq<InvoicedLoan>, itemId: ItemId, today: Date) {
    exists j, k :: 0 <= j < |items| && 0 <= k < |loans| &&
      items[j].itemId == itemId && Paired(key, items[j], loans[k]) && Blocking(loans[k], today)
  }

  /** A row of the listing: the item's columns and the owner's name. */
  datatype AvailableRow = AvailableRow(
    itemId: ItemId,
    itemName: Option<string>,
    value: Option<int>,
    itemDescription: Option<string>,
    userId: UserId,
    loanFee: Option<int>,
    loanDuration: Option<int>,
    ownerName: string)

  /** The main query's `natural join UserAccount` pairs on `userId` (NULL pairs with nothing). */
  predicate Owns(a: UserAccount, item: LoanerItem) {
    item.fields.userId == Some(a.userId)
  }

  function RowOf(item: LoanerItem, owner: UserAccount): AvailableRow {
    AvailableRow(item.itemId, item.fields.itemName, item.fields.value, item.fields.itemDescription,
      owner.userId, item.fields.loanFee, item.fields.loanDuration, owner.name)
  }

  /** The rows `item` contributes to the main query's join: one per owning account. */
  function OwnerRows(item: LoanerItem, accounts: seq<UserAccount>): (r: seq<AvailableRow>)
    ensures forall row :: row in r <==> exists a :: a in accounts && Owns(a, item) && row == RowOf(item, a)
  {
    if |accounts| == 0 then []
    else
      var rest := OwnerRows(item, accounts[1..]);
      assert forall a :: a in accounts <==> a == accounts[0] || a in accounts[1..];
      if Owns(accounts[0], item) then [RowOf(item, accounts[0])] + rest else rest
  }

  /** A row the query (before `distinct`) produces: some item with an owning
      account for which the `not exists` sub-query is empty. */
  ghost predicate Qualifies(key: JoinKey, db: Db, today: Date, row: AvailableRow) {
    exists i, a :: 0 <= i < |db.items| && a in db.accounts && Owns(a, db.items[i]) &&
      !OnLoan(key, db.items, db.loans, db.items[i].itemId, today) && row == RowOf(db.items[i], a)
  }

  /** The main query's join and `where` clause over the items `rest`, the sub-query
      ranging over the whole table `db.items`. */
  function Candidates(key: JoinKey, db: Db, rest: seq<LoanerItem>, today: Date): (r: seq<AvailableRow>)
    ensures forall row :: row in r <==>
      (exists i, a :: 0 <= i < |rest| && a in db.accounts && Owns(a, rest[i]) &&
        !OnLoan(key, db.items, db.loans, rest[i].itemId, today) && row == RowOf(rest[i], a))
  {
    if |rest| == 0 then []
    else
      var tail := Candidates(key, db, rest[1..], today);
      var head := if OnLoan(key, db.items, db.loans, rest[0].itemId, today) then [] else OwnerRows(rest[0], db.accounts);
      assert forall row :: row in tail ==> row in head + tail;
      assert forall i :: 1 <= i < |rest| ==> rest[i] == rest[1..][i - 1];
      head + tail
  }

  /** `GET /items?isListAvailable=…`: every row the query qualifies, each once. */
  function AvailableItems(key: JoinKey, db: Db, today: Date): (r: seq<AvailableRow>)
    ensures NoDup(r)
    ensures forall row :: row in r <==> Qualifies(key, db, today, row)
  {
    Distinct(Candidates(key, db, db.items, today))
  }

  /** An item with a blocking loan paired to it is never listed, under either join key. */
  lemma BlockedItemNeverListed(key: JoinKey, db: Db, today: Date, item: LoanerItem, loan: InvoicedLoan)
    requires item in db.items && loan in db.loans
    requires Paired(key, item, loan) && Blocking(loan, today)
    ensures forall row :: row in AvailableItems(key, db, today) ==> row.itemId != item.itemId
  {
    var j :| 0 <= j < |db.items| && db.items[j] == item;
    var k :| 0 <= k < |db.loans| && db.loans[k] == loan;
    assert OnLoan(key, db.items, db.loans, item.itemId, today);
  }

  /** A lost item stays hidden on every date. */
  lemma LostItemNeverListed(key: JoinKey, db: Db, item: LoanerItem, loan: InvoicedLoan)
    requires item in db.items && loan in db.loans
    requires Paired(key, item, loan) && loan.isReturned == Lost
    ensures forall today, row :: row in AvailableItems(key, db, today) ==> row.itemId != item.itemId
  {
    forall today, row | row in AvailableItems(key, db, today) ensures row.itemId != item.itemId {
      BlockedItemNeverListed(key, db, today, item, loan);
    }
  }

  /** An owned item with no blocking loan is listed, exactly once. */
  lemma FreeItemListedOnce(key: JoinKey, db: Db, today: Date, item: LoanerItem, owner: UserAccount)
    requires item in db.items && owner in db.accounts && Owns(owner, item)
    requires !OnLoan(key, db.items, db.loans, item.itemId, today)
    ensures multiset(AvailableItems(key, db, today))[RowOf(item, owner)] == 1
  {
    var i :| 0 <= i < |db.items| && db.items[i] == item;
    assert Qualifies(key, db, today, RowOf(item, owner));
    NoDupOnce(AvailableItems(key, db, today), RowOf(item, owner));
  }

  /** With the intended pairing on `itemId` alone, any lost item or any loan
      covering today hides the item, whatever fee either row records. */
  lemma IntendedHidesEveryActiveLoan(db: Db, today: Date, item: LoanerItem, loan: InvoicedLoan)
    requires item in db.items && loan in db.loans
    requires loan.itemId == item.itemId && Blocking(loan, today)
    ensures forall row :: row in AvailableItems(ItemIdOnly, db, today) ==> row.itemId != item.itemId
  {
    BlockedItemNeverListed(ItemIdOnly, db, today, item, loan);
  }

  // ---------------------------------------------------------------------
  // POST and PATCH /add-item
  // ---------------------------------------------------------------------

  /** A JSON request body: only numbers and strings occur in these handlers. */
  datatype Json = JInt(n: int) | JStr(s: string)
  type Body = map<string, Json>

  /** node-postgres sends every parameter as text: a string as it is, a
      number as its decimal text. A text column stores that text. */
  function AsText(j: Json): string {
    if j.JStr? then j.s else IntToString(j.n)
  }

  /** The value an integer column reads from a parameter's text; None when
      the text is not an integer, which fails the statement. A JSON number
      always reads back as itself; a string must be integer text. */
  function AsInteger(j: Json): (r: Option<int>)
    ensures j.JInt? ==> r == Some(j.n)
    ensures j.JStr? ==> r == ParseInt(j.s)
  {
    ParseIntToString(if j.JInt? then j.n else 0);
    ParseInt(AsText(j))
  }

  /** A body property as a parameter of an integer column: absent
      (`undefined`, sent as NULL), given, or text that is not an integer. */
  datatype Cell<T> = Absent | Given(v: T) | Mistyped

  function IntCell(body: Body, key: string): Cell<int> {
    if key !in body then Absent
    else match AsInteger(body[key])
      case Some(n) => Given(n)
      case None => Mistyped
  }

  function CellValue<T>(c: Cell<T>): Option<T>
    requires !c.Mistyped?
  {
    if c.Given? then Some(c.v) else None
  }

  /** A body property as a parameter of a text column: NULL when absent. */
  function TextColumn(body: Body, key: string): Option<string> {
    if key in body then Some(AsText(body[key])) else None
  }

  /** The property is present but PostgreSQL cannot read it as an integer. */
  predicate NotInteger(body: Body, key: string) {
    key in body && AsInteger(body[key]).None?
  }

  /** The six column values both handlers read from the camel-case body keys
      `itemName`, `itemValue`, `itemDesc`, `userId`, `loanFee`, `loanDuration`:
      an absent key is NULL, a text column stores the parameter's text, and
      an integer column its integer; None, a failing statement, exactly when
      an integer column is given text that is not an integer. */
  function ReadItemFields(body: Body): (r: Option<ItemFields>)
    ensures r.None? <==>
      NotInteger(body, "itemValue") || NotInteger(body, "userId") ||
      NotInteger(body, "loanFee") || NotInteger(body, "loanDuration")
    ensures r.Some? ==> r.value.itemName == (if "itemName" in body then Some(AsText(body["itemName"])) else None)
    ensures r.Some? ==> r.value.itemDescription == (if "itemDesc" in body then Some(AsText(body["itemDesc"])) else None)
    ensures r.Some? ==> r.value.value == (if "itemValue" in body then AsInteger(body["itemValue"]) else None)
    ensures r.Some? ==> r.value.userId == (if "userId" in body then AsInteger(body["userId"]) else None)
    ensures r.Some? ==> r.value.loanFee == (if "loanFee" in body then AsInteger(body["loanFee"]) else None)
    ensures r.Some? ==> r.value.loanDuration == (if "loanDuration" in body then AsInteger(body["loanDuration"]) else None)
  {
    var value := IntCell(body, "itemValue");
    var user := IntCell(body, "userId");
    var fee := IntCell(body, "loanFee");
    var duration := IntCell(body, "loanDuration");
    if value.Mistyped? || user.Mistyped? || fee.Mistyped? || duration.Mistyped? then None
    else Some(ItemFields(TextColumn(body, "itemName"), CellValue(value), TextColumn(body, "itemDesc"),
      CellValue(user), CellValue(fee), CellValue(duration)))
  }

  /** A string for a text column, or a number, never fails the statement;
      a string for an integer column fails it exactly when it is not integer text. */
  lemma TextReadsAsTheColumnType(s: string, n: int)
    ensures AsText(JStr(s)) == s
    ensures AsInteger(JInt(n)) == Some(n)
    ensures AsInteger(JStr(IntToString(n))) == Some(n)
    ensures AsInteger(JStr(s)).None? <==>
      !(|s| >= 1 && forall i :: 0 <= i < |s| ==> IsDigit(s[i]) || (i == 0 && |s| >= 2 && (s[i] == '-' || s[i] == '+')))
  {
    ParseIntToString(n);
  }

  /** `POST /add-item`: lazily registers the user as a loaner, then inserts
      the item under the next serial id. A `userId` that is not integer text
      fails the look-up; an absent one is NULL, which the look-up matches
      with no row and whose insert `loaner.userid`, a key, rejects. Either
      way nothing is written. A
      column given text that is not an integer fails the insert after the
      registration. */
  function AddItem(db: Db, body: Body): (r: Reply)
    ensures r.call.None?
    ensures r.status == Ok || r.status == NoReply
    ensures !IntCell(body, "userId").Given? ==> r.db == db && r.status == NoReply
    ensures IntCell(body, "userId").Given? ==>
      var u := IntCell(body, "userId").v;
      && u in r.db.loaners
      && db.loaners <= r.db.loaners
      && multiset(r.db.loaners) - multiset(db.loaners) <= multiset{u}
    ensures r.status == Ok <==> IntCell(body, "userId").Given? && ReadItemFields(body).Some?
    ensures r.status == Ok ==> r.db.items == db.items + [LoanerItem(db.nextItemId, ReadItemFields(body).value)]
    ensures r.status != Ok ==> r.db.items == db.items
    ensures r.db.accounts == db.accounts && r.db.loans == db.loans && r.db.borrowers == db.borrowers && r.db.joins == db.joins
  {
    match IntCell(body, "userId")
    case Given(u) =>
      var registered := db.(loaners := Register(db.loaners, u));
      (match ReadItemFields(body)
       case Some(f) =>
         Reply(registered.(items := db.items + [LoanerItem(db.nextItemId, f)], nextItemId := db.nextItemId + 1), Ok, None)
       case None => Reply(registered, NoReply, None))
    case _ => Reply(db, NoReply, None)
  }

  /** The add form sends the typed price as text; PostgreSQL reads it into
      the integer column, so the item is stored with that price. */
  lemma TypedPriceIsStored(db: Db)
    ensures var body := map["userId" := JInt(1), "itemName" := JStr("drill"),
      "itemValue" := JStr("40"), "itemDesc" := JStr("cordless")];
      && AddItem(db, body).status == Ok
      && AddItem(db, body).db.items == db.items + [LoanerItem(db.nextItemId,
        ItemFields(Some("drill"), Some(40), Some("cordless"), Some(1), None, None))]
  {
    var body := map["userId" := JInt(1), "itemName" := JStr("drill"),
      "itemValue" := JStr("40"), "itemDesc" := JStr("cordless")];
    assert ParseInt("40") == Some(40) by {
      assert AllDigits("40") && "40"[..1] == "4" && ParseNat("4") == 4;
    }
    assert IntCell(body, "itemValue") == Given(40);
    assert IntCell(body, "userId") == Given(1);
    assert IntCell(body, "loanFee") == Absent && IntCell(body, "loanDuration") == Absent;
    assert ReadItemFields(body) == Some(ItemFields(Some("drill"), Some(40), Some("cordless"), Some(1), None, None));
  }

  /** `update loaneritem set … where itemid = id`, column by column. */
  function UpdateRows(items: seq<LoanerItem>, id: ItemId, f: ItemFields): (r: seq<LoanerItem>)
    ensures |r| == |items|
    ensures forall i :: 0 <= i < |r| ==> r[i].itemId == items[i].itemId
    ensures forall i :: 0 <= i < |r| && items[i].itemId != id ==> r[i] == items[i]
    ensures forall i :: 0 <= i < |r| && items[i].itemId == id ==> r[i].fields == f
  {
    if |items| == 0 then []
    else
      var head := if items[0].itemId == id then LoanerItem(id, f) else items[0];
      [head] + UpdateRows(items[1..], id, f)
  }

  /** `PATCH /add-item`: rewrites every column but the id of the row whose id
      is the body's `itemId`. An absent `itemId` is NULL, which `=` matches
      with no row, so nothing changes; an integer column given text that is
      not an integer fails the statement. */
  function PatchItem(db: Db, body: Body): (r: Reply)
    ensures r.call.None?
    ensures r.status == Ok || r.status == NoReply
    ensures r.status == NoReply ==> r.db == db
    ensures !("itemId" in body) ==> r.db == db
    ensures r.status == Ok <==> !IntCell(body, "itemId").Mistyped? && ReadItemFields(body).Some?
    ensures r.status == Ok && IntCell(body, "itemId").Given? ==>
      r.db.items == UpdateRows(db.items, IntCell(body, "itemId").v, ReadItemFields(body).value)
    ensures r.db == db.(items := r.db.items)
  {
    var fields := ReadItemFields(body);
    match IntCell(body, "itemId")
    case Mistyped => Reply(db, NoReply, None)
    case Absent => if fields.None? then Reply(db, NoReply, None) else Reply(db, Ok, None)
    case Given(id) =>
      if fields.None? then Reply(db, NoReply, None)
      else Reply(db.(items := UpdateRows(db.items, id, fields.value)), Ok, None)
  }

  /** The id column and the row order survive an update, so the table's keys do. */
  lemma UpdateRowsKeepsValid(db: Db, id: ItemId, f: ItemFields)
    requires Valid(db)
    ensures Valid(db.(items := UpdateRows(db.items, id, f)))
  {
  }

  /** Applying the same update twice is the same as applying it once. */
  lemma UpdateRowsIdempotent(items: seq<LoanerItem>, id: ItemId, f: ItemFields)
    ensures UpdateRows(UpdateRows(items, id, f), id, f) == UpdateRows(items, id, f)
  {
  }

  /** Both handlers keep the schema's keys. */
  lemma HandlersKeepValid(db: Db, body: Body)
    requires Valid(db)
    ensures Valid(AddItem(db, body).db)
    ensures Valid(PatchItem(db, body).db)
  {
    var r := AddItem(db, body);
    if r.status == Ok {
      var n := |db.items|;
      assert forall i :: 0 <= i < n ==> r.db.items[i] == db.items[i];
      assert r.db.items[n].itemId == db.nextItemId;
    }
  }

  // ---------------------------------------------------------------------
  // The natural join on loanFee, shown on one concrete history
  // ---------------------------------------------------------------------

  /** The edit form sends `itemId`, `userId`, `itemName`, `itemValue` and
      `itemDesc` but no `loanFee`, so `PATCH /add-item` sets the fee to NULL. */
  function EditBody(): Body {
    map["itemId" := JInt(0), "userId" := JInt(1), "itemName" := JStr("drill"),
        "itemValue" := JInt(40), "itemDesc" := JStr("cordless")]
  }

  /** The columns the edit writes: every one the form sends, and NULL for the fee and duration. */
  lemma EditBodyColumns()
    ensures IntCell(EditBody(), "itemId") == Given(0)
    ensures ReadItemFields(EditBody()) == Some(ItemFields(Some("drill"), Some(40), Some("cordless"), Some(1), None, None))
  {
    var body := EditBody();
    assert IntCell(body, "itemId") == Given(0) && IntCell(body, "userId") == Given(1);
    assert IntCell(body, "itemValue") == Given(40);
    assert IntCell(body, "loanFee") == Absent && IntCell(body, "loanDuration") == Absent;
  }

  /** One owner, one item with fee 5, and a loan of that item at fee 5 that was lost. */
  function LostDrillDb(): Db {
    Db([UserAccount(1, "owner", "")],
       [LoanerItem(0, ItemFields(Some("drill"), Some(40), Some("cordless"), Some(1), Some(5), Some(7)))],
       [InvoicedLoan(0, 0, 1, 2, Some(10), Some(20), None, Some(5), Lost)],
       [1], [2], [], 1)
  }

  /** As written: the lost drill is hidden until its owner edits it; after the
      edit its fee is NULL, the natural join pairs it with no loan, and the
      lost item is listed as available again. Pairing on `itemId` alone keeps
      it hidden. */
  lemma EditedLostItemListedAgain()
    ensures AvailableItems(NaturalJoin, LostDrillDb(), 30) == []
    ensures AvailableItems(NaturalJoin, PatchItem(LostDrillDb(), EditBody()).db, 30) != []
    ensures AvailableItems(ItemIdOnly, PatchItem(LostDrillDb(), EditBody()).db, 30) == []
  {
    var db := LostDrillDb();
    var before := AvailableItems(NaturalJoin, db, 30);
    assert OnLoan(NaturalJoin, db.items, db.loans, 0, 30) by {
      assert Paired(NaturalJoin, db.items[0], db.loans[0]);
    }

    var body := EditBody();
    EditBodyColumns();
    var after := PatchItem(db, body).db;
    var f := ReadItemFields(body);
    assert |after.items| == 1 && after.items[0] == LoanerItem(0, f.value);
    assert after.loans == db.loans && after.accounts == db.accounts;
    assert !OnLoan(NaturalJoin, after.items, after.loans, 0, 30);
    assert Owns(after.accounts[0], after.items[0]);
    assert after.accounts[0] in after.accounts && after.items[0].itemId == 0;
    assert Qualifies(NaturalJoin, after, 30, RowOf(after.items[0], after.accounts[0]));

    var intended := AvailableItems(ItemIdOnly, after, 30);
    assert OnLoan(ItemIdOnly, after.items, after.loans, 0, 30) by {
      assert Paired(ItemIdOnly, after.items[0], after.loans[0]);
    }
  }
}

=== FILE: loans.dfy ===
/** Invoiced loans: the handlers of `POST`, `PATCH` and `DELETE` on
    `/users/loans` and `/users/loanreturn`, the loan-history query of
    `GET /users/loans`, and `POST /insertbid`, which registers borrowers the
    same way (server.js). */
module Loans {
  import opened Wrappers
  import opened Seqs
  import opened Tables

  // ---------------------------------------------------------------------
  // Borrower registration ahead of validation
  // ---------------------------------------------------------------------

  /** The look-up and insert on `borrower` that both handlers run before
      they validate the request. A `borrowerId` given as text that is not an
      integer makes the look-up fail. An absent one is NULL: the look-up
      finds no row, and the insert of NULL fails because `borrower.userid`
      is a key. Either rejection is not caught, and nothing is written. */
  function RegisterBorrower(db: Db, borrowerId: Value): (r: Option<Db>)
    ensures r.Some? <==> borrowerId.Int?
    ensures r.Some? ==> r.value == db.(borrowers := r.value.borrowers)
    ensures r.Some? ==> borrowerId.n in r.value.borrowers && db.borrowers <= r.value.borrowers
    ensures r.Some? ==> multiset(r.value.borrowers) - multiset(db.borrowers) <= multiset{borrowerId.n}
  {
    if borrowerId.Int? then Some(db.(borrowers := Register(db.borrowers, borrowerId.n))) else None
  }

  datatype LoanRequest = LoanRequest(loanerId: Value, borrowerId: Value, itemId: Value)

  predicate ValidLoanRequest(req: LoanRequest) {
    IsInt(req.loanerId) && IsInt(req.borrowerId) && IsInt(req.itemId)
  }

  /** `POST /users/loans`: registers the borrower, validates the three ids,
      then calls `insertNewInvoicedLoan(today, loaner, borrower, item)`; a
      failing call answers 400. */
  function CreateLoan(db: Db, req: LoanRequest, today: Date, procFails: bool): (r: Reply)
    ensures !req.borrowerId.Int? ==> r.db == db && r.status == NoReply && r.call.None?
    ensures req.borrowerId.Int? ==> r.db == RegisterBorrower(db, req.borrowerId).value && r.status != NoReply
    ensures r.call.Some? <==> ValidLoanRequest(req)
    ensures r.call.Some? ==>
      r.call.value == InsertNewInvoicedLoan(today, req.loanerId.n, req.borrowerId.n, req.itemId.n)
    ensures r.status == Ok <==> ValidLoanRequest(req) && !procFails
    ensures req.borrowerId.Int? && r.status != Ok ==> r.status == BadRequest
  {
    match RegisterBorrower(db, req.borrowerId)
    case None => Reply(db, NoReply, None)
    case Some(registered) =>
      if !ValidLoanRequest(req) then Reply(registered, BadRequest, None)
      else
        var call := InsertNewInvoicedLoan(today, req.loanerId.n, req.borrowerId.n, req.itemId.n);
        Reply(registered, if procFails then BadRequest else Ok, Some(call))
  }

  /** A loan request rejected by validation still leaves its borrower
      registered, and the registry gains no other id. */
  lemma RejectedLoanStillRegisters(db: Db, req: LoanRequest, today: Date, procFails: bool)
    requires req.borrowerId.Int? && !ValidLoanRequest(req)
    ensures CreateLoan(db, req, today, procFails).status == BadRequest
    ensures CreateLoan(db, req, today, procFails).call.None?
    ensures req.borrowerId.n in CreateLoan(db, req, today, procFails).db.borrowers
    ensures forall v :: v in CreateLoan(db, req, today, procFails).db.borrowers <==> v in db.borrowers || v == req.borrowerId.n
  {
  }

  datatype BidRequest = BidRequest(borrowerId: Value, advId: Value, bidPrice: Value)

  predicate ValidBidRequest(req: BidRequest) {
    IsInt(req.borrowerId) && IsInt(req.advId) && IsInt(req.bidPrice)
  }

  /** `POST /insertbid`: registers the bidder as a borrower, validates, then
      calls `insertNewBid(bidder, adv, today, price)`. The call's failure is
      only logged, so every validated request answers 200. */
  function InsertBid(db: Db, req: BidRequest, today: Date): (r: Reply)
    ensures !req.borrowerId.Int? ==> r.db == db && r.status == NoReply && r.call.None?
    ensures req.borrowerId.Int? ==> r.db == RegisterBorrower(db, req.borrowerId).value
    ensures r.status == Ok <==> ValidBidRequest(req)
    ensures r.call.Some? <==> ValidBidRequest(req)
    ensures r.call.Some? ==> r.call.value == InsertNewBid(req.borrowerId.n, req.advId.n, today, req.bidPrice.n)
    ensures req.borrowerId.Int? && !ValidBidRequest(req) ==> r.status == BadRequest && req.borrowerId.n in r.db.borrowers
  {
    match RegisterBorrower(db, req.borrowerId)
    case None => Reply(db, NoReply, None)
    case Some(registered) =>
      if !ValidBidRequest(req) then Reply(registered, BadRequest, None)
      else Reply(registered, Ok, Some(InsertNewBid(req.borrowerId.n, req.advId.n, today, req.bidPrice.n)))
  }

  // ---------------------------------------------------------------------
  // Existence pre-checks: PATCH /users/loanreturn and DELETE /users/loans
  // ---------------------------------------------------------------------

  /** `select invoiceID from InvoicedLoan where invoiceID = $1` finds a row. */
  predicate InvoiceExists(loans: seq<InvoicedLoan>, id: InvoiceId) {
    exists k :: 0 <= k < |loans| && loans[k].invoiceId == id
  }

  /** The boolean PostgreSQL reads from a parameter `isBoolean()` accepted. */
  function AsBoolean(v: Value): (b: bool)
    requires IsBoolean(v)
    ensures v.Bool? ==> b == v.b
    ensures v.Int? ==> (b <==> v.n == 1)
  {
    if v.Bool? then v.b else v.n == 1
  }

  /** `PATCH /users/loanreturn`: validation (400), existence (404), then
      `updateStatusOfLoanedItem(isReturned, invoiceId)`, whose failure is 400.
      The handler itself writes nothing. */
  function ReturnLoan(db: Db, invoiceId: Value, isReturned: Value, procFails: bool): (r: Reply)
    ensures r.db == db
    ensures r.status == BadRequest <==> !(IsInt(invoiceId) && IsBoolean(isReturned)) || (r.call.Some? && procFails)
    ensures r.status == NotFound <==>
      IsInt(invoiceId) && IsBoolean(isReturned) && !InvoiceExists(db.loans, invoiceId.n)
    ensures r.call.Some? <==>
      IsInt(invoiceId) && IsBoolean(isReturned) && InvoiceExists(db.loans, invoiceId.n)
    ensures r.call.Some? ==> r.call.value == UpdateStatusOfLoanedItem(AsBoolean(isReturned), invoiceId.n)
    ensures r.status != NoReply
  {
    if !(IsInt(invoiceId) && IsBoolean(isReturned)) then Reply(db, BadRequest, None)
    else if !InvoiceExists(db.loans, invoiceId.n) then Reply(db, NotFound, None)
    else
      var call := UpdateStatusOfLoanedItem(AsBoolean(isReturned), invoiceId.n);
      Reply(db, if procFails then BadRequest else Ok, Some(call))
  }

  /** `isBoolean()` lets 1 and 0 through besides true and false, and
      PostgreSQL reads them as true and false; any other number is a 400. */
  lemma NumericFlagsReachTheProcedure(db: Db, id: InvoiceId, procFails: bool)
    requires InvoiceExists(db.loans, id)
    ensures ReturnLoan(db, Int(id), Int(1), procFails).call == Some(UpdateStatusOfLoanedItem(true, id))
    ensures ReturnLoan(db, Int(id), Int(0), procFails).call == Some(UpdateStatusOfLoanedItem(false, id))
    ensures ReturnLoan(db, Int(id), Int(1), procFails).call == ReturnLoan(db, Int(id), Bool(true), procFails).call
    ensures ReturnLoan(db, Int(id), Int(2), procFails) == Reply(db, BadRequest, None)
  {
  }

  /** The rows the delete's `where invoiceID = id` selects, and those it keeps. */
  function HasInvoiceId(id: InvoiceId): InvoicedLoan -> bool {
    (l: InvoicedLoan) => l.invoiceId == id
  }

  function OtherInvoiceId(id: InvoiceId): InvoicedLoan -> bool {
    (l: InvoicedLoan) => l.invoiceId != id
  }

  /** `delete from InvoicedLoan where invoiceID = id`. */
  function RemoveInvoice(loans: seq<InvoicedLoan>, id: InvoiceId): (r: seq<InvoicedLoan>)
    ensures forall l :: l in r <==> l in loans && l.invoiceId != id
  {
    Filter(OtherInvoiceId(id), loans)
  }

  /** `DELETE /users/loans`: validation (400), existence (404), then the
      delete; a database error from the delete (a row that still references
      the invoice) answers 400 and changes nothing. */
  function DeleteLoan(db: Db, invoiceId: Value, dbError: bool): (r: Reply)
    ensures r.call.None?
    ensures r.db == db.(loans := r.db.loans)
    ensures r.status != NoReply
    ensures r.status == BadRequest <==> !IsInt(invoiceId) || (InvoiceExists(db.loans, invoiceId.n) && dbError)
    ensures r.status == NotFound <==> IsInt(invoiceId) && !InvoiceExists(db.loans, invoiceId.n)
    ensures r.status == Ok <==> IsInt(invoiceId) && InvoiceExists(db.loans, invoiceId.n) && !dbError
    ensures r.status != Ok ==> r.db == db
    ensures r.status == Ok ==> forall l :: l in r.db.loans <==> l in db.loans && l.invoiceId != invoiceId.n
    ensures r.status == Ok ==> |r.db.loans| < |db.loans|
  {
    if !IsInt(invoiceId) then Reply(db, BadRequest, None)
    else if !InvoiceExists(db.loans, invoiceId.n) then Reply(db, NotFound, None)
    else if dbError then Reply(db, BadRequest, None)
    else
      Reply(db.(loans := RemoveInvoice(db.loans, invoiceId.n)), Ok, None)
  }

  /** With unique invoice ids exactly one row has a given id. */
  lemma {:induction false} OneInvoicePerId(loans: seq<InvoicedLoan>, id: InvoiceId)
    requires forall i, j :: 0 <= i < j < |loans| ==> loans[i].invoiceId != loans[j].invoiceId
    requires InvoiceExists(loans, id)
    ensures |Filter(HasInvoiceId(id), loans)| == 1
  {
    var tail := loans[1..];
    assert forall i, j :: 0 <= i < j < |tail| ==> tail[i].invoiceId != tail[j].invoiceId by {
      forall i, j | 0 <= i < j < |tail| ensures tail[i].invoiceId != tail[j].invoiceId {
        assert tail[i] == loans[i + 1] && tail[j] == loans[j + 1];
      }
    }
    if loans[0].invoiceId == id {
      forall k | 0 <= k < |tail| ensures !HasInvoiceId(id)(tail[k]) {
        assert tail[k] == loans[k + 1];
      }
      assert Filter(HasInvoiceId(id), tail) == [];
    } else {
      var k :| 0 <= k < |loans| && loans[k].invoiceId == id;
      assert tail[k - 1].invoiceId == id;
      OneInvoicePerId(tail, id);
    }
  }

  /** A successful delete of an existing invoice removes exactly that one row
      and keeps every other row, as often as it occurred. */
  lemma DeleteRemovesExactlyThatInvoice(db: Db, id: InvoiceId, dbError: bool)
    requires Valid(db)
    requires DeleteLoan(db, Int(id), dbError).status == Ok
    ensures |DeleteLoan(db, Int(id), dbError).db.loans| == |db.loans| - 1
    ensures multiset(DeleteLoan(db, Int(id), dbError).db.loans) + multiset(Filter(HasInvoiceId(id), db.loans)) == multiset(db.loans)
  {
    FilterSplits(OtherInvoiceId(id), HasInvoiceId(id), db.loans);
    OneInvoicePerId(db.loans, id);
  }

  /** No two rows share an invoice id. */
  predicate UniqueInvoiceIds(loans: seq<InvoicedLoan>) {
    forall i, j :: 0 <= i < j < |loans| ==> loans[i].invoiceId != loans[j].invoiceId
  }

  /** Unique invoice ids, stated by position, are no duplicate rows plus no
      two different rows with one id. */
  lemma UniqueByMembers(s: seq<InvoicedLoan>)
    ensures UniqueInvoiceIds(s) <==>
      NoDup(s) && forall x, y :: x in s && y in s && x.invoiceId == y.invoiceId ==> x == y
  {
    if UniqueInvoiceIds(s) {
      forall x, y | x in s && y in s && x.invoiceId == y.invoiceId ensures x == y {
        var i :| 0 <= i < |s| && s[i] == x;
        var j :| 0 <= j < |s| && s[j] == y;
        assert !(i < j) && !(j < i);
      }
    }
    if NoDup(s) && forall x, y :: x in s && y in s && x.invoiceId == y.invoiceId ==> x == y {
      forall i, j | 0 <= i < j < |s| ensures s[i].invoiceId != s[j].invoiceId {
        assert s[i] in s && s[j] in s && s[i] != s[j];
      }
    }
  }

  /** Filtering keeps invoice ids unique. */
  lemma FilterKeepsInvoiceIdsUnique(p: InvoicedLoan -> bool, loans: seq<InvoicedLoan>)
    requires UniqueInvoiceIds(loans)
    ensures UniqueInvoiceIds(Filter(p, loans))
  {
    UniqueByMembers(loans);
    FilterNoDup(p, loans);
    UniqueByMembers(Filter(p, loans));
  }

  /** The loan handlers keep the schema's keys. */
  lemma LoanHandlersKeepValid(db: Db, req: LoanRequest, bid: BidRequest, invoiceId: Value,
                              isReturned: Value, today: Date, procFails: bool, dbError: bool)
    requires Valid(db)
    ensures Valid(CreateLoan(db, req, today, procFails).db)
    ensures Valid(InsertBid(db, bid, today).db)
    ensures Valid(ReturnLoan(db, invoiceId, isReturned, procFails).db)
    ensures Valid(DeleteLoan(db, invoiceId, dbError).db)
  {
    if DeleteLoan(db, invoiceId, dbError).status == Ok {
      FilterKeepsInvoiceIdsUnique(OtherInvoiceId(invoiceId.n), db.loans);
    }
  }

  /** A request for an unknown invoice answers 404 and changes nothing, on both handlers. */
  lemma UnknownInvoiceIsNotFound(db: Db, id: InvoiceId, isReturned: Value, procFails: bool, dbError: bool)
    requires !InvoiceExists(db.loans, id) && IsBoolean(isReturned)
    ensures ReturnLoan(db, Int(id), isReturned, procFails) == Reply(db, NotFound, None)
    ensures DeleteLoan(db, Int(id), dbError) == Reply(db, NotFound, None)
  {
  }

  // ---------------------------------------------------------------------
  // GET /users/loans: the loan history
  // ---------------------------------------------------------------------

  /** Whose history is asked for: the loans a user lent out or borrowed. */
  datatype Role = AsLoaner | AsBorrower

  /** The user the `where` clause compares with the requested id. */
  function Party(role: Role, l: InvoicedLoan): UserId {
    if role == AsLoaner then l.loanerId else l.borrowerId
  }

  /** The user whose account supplies the row's `name`: the other side of the loan. */
  function Counterparty(role: Role, l: InvoicedLoan): UserId {
    if role == AsLoaner then l.borrowerId else l.loanerId
  }

  datatype HistoryRow = HistoryRow(
    startDate: Option<Date>,
    endDate: Option<Date>,
    penalty: Option<int>,
    loanFee: Option<int>,
    loanerId: UserId,
    borrowerId: UserId,
    invoiceId: InvoiceId,
    itemId: ItemId,
    itemName: Option<string>,
    value: Option<int>,
    itemDescription: Option<string>,
    name: string,
    isReturned: ReturnStatus)

  function RowOf(l: InvoicedLoan, item: LoanerItem, a: UserAccount): HistoryRow {
    HistoryRow(l.startDate, l.endDate, l.penalty, l.loanFee, l.loanerId, l.borrowerId, l.invoiceId,
      l.itemId, item.fields.itemName, item.fields.value, item.fields.itemDescription, a.name, l.isReturned)
  }

  /** The two inner joins: the item the loan lent (same id, owned by the
      loaner) and the account of the counterparty. */
  predicate Describes(role: Role, l: InvoicedLoan, item: LoanerItem, a: UserAccount) {
    item.itemId == l.itemId && item.fields.userId == Some(l.loanerId) && a.userId == Counterparty(role, l)
  }

  function AccountRows(role: Role, l: InvoicedLoan, item: LoanerItem, accounts: seq<UserAccount>): (r: seq<HistoryRow>)
    ensures forall row :: row in r <==> exists a :: a in accounts && Describes(role, l, item, a) && row == RowOf(l, item, a)
  {
    if |accounts| == 0 then []
    else
      var rest := AccountRows(role, l, item, accounts[1..]);
      assert forall a :: a in accounts <==> a == accounts[0] || a in accounts[1..];
      if Describes(role, l, item, accounts[0]) then [RowOf(l, item, accounts[0])] + rest else rest
  }

  function ItemRows(role: Role, l: InvoicedLoan, items: seq<LoanerItem>, accounts: seq<UserAccount>): (r: seq<HistoryRow>)
    ensures forall row :: row in r <==>
      (exists item, a :: item in items && a in accounts && Describes(role, l, item, a) && row == RowOf(l, item, a))
  {
    if |items| == 0 then []
    else
      var rest := ItemRows(role, l, items[1..], accounts);
      assert forall item :: item in items <==> item == items[0] || item in items[1..];
      AccountRows(role, l, items[0], accounts) + rest
  }

  /** The join restricted by `where IL.loanerID = uid` (or `IL.borrowerID`), before ordering. */
  function JoinRows(role: Role, uid: UserId, loans: seq<InvoicedLoan>, items: seq<LoanerItem>, accounts: seq<UserAccount>): (r: seq<HistoryRow>)
    ensures forall row :: row in r <==>
      (exists l, item, a :: l in loans && item in items && a in accounts &&
        Party(role, l) == uid && Describes(role, l, item, a) && row == RowOf(l, item, a))
  {
    if |loans| == 0 then []
    else
      var rest := JoinRows(role, uid, loans[1..], items, accounts);
      assert forall l :: l in loans <==> l == loans[0] || l in loans[1..];
      (if Party(role, loans[0]) == uid then ItemRows(role, loans[0], items, accounts) else []) + rest
  }

  /** Whether a row starting on `a` may come before one starting on `b`
      under `desc`, where PostgreSQL puts NULL first. */
  predicate NoOlder(a: Option<Date>, b: Option<Date>) {
    a.None? || (b.Some? && a.value >= b.value)
  }

  /** `order by startDate desc`. */
  predicate NewestFirst(rows: seq<HistoryRow>) {
    forall i, j :: 0 <= i < j < |rows| ==> NoOlder(rows[i].startDate, rows[j].startDate)
  }

  function InsertByStart(x: HistoryRow, rows: seq<HistoryRow>): (r: seq<HistoryRow>)
    requires NewestFirst(rows)
    ensures NewestFirst(r)
    ensures multiset(r) == multiset(rows) + multiset{x}
    ensures forall y :: y in r ==> y == x || y in rows
  {
    if |rows| == 0 then [x]
    else
      assert rows == [rows[0]] + rows[1..];
      if NoOlder(x.startDate, rows[0].startDate) then [x] + rows
      else
        var rest := InsertByStart(x, rows[1..]);
        assert forall y :: y in rest ==> NoOlder(rows[0].startDate, y.startDate);
        [rows[0]] + rest
  }

  /** Orders rows newest first; rows with equal start dates keep no promised order. */
  function SortNewestFirst(rows: seq<HistoryRow>): (r: seq<HistoryRow>)
    ensures NewestFirst(r)
    ensures multiset(r) == multiset(rows)
  {
    if |rows| == 0 then []
    else
      assert rows == [rows[0]] + rows[1..];
      InsertByStart(rows[0], SortNewestFirst(rows[1..]))
  }

  /** The query's answer: its status and its rows. */
  datatype HistoryReply = HistoryReply(status: Status, rows: seq<HistoryRow>)

  /** Only the text 'true' selects the loaner branch (`=== 'true'`). */
  function RoleOf(isLoaner: Value): (role: Role)
    ensures role == AsLoaner <==> isLoaner == Bool(true)
  {
    if isLoaner == Bool(true) then AsLoaner else AsBorrower
  }

  /** `GET /users/loans?userId=…&isLoaner=…`. */
  function LoanHistory(db: Db, userId: Value, isLoaner: Value): (q: HistoryReply)
    ensures !(IsInt(userId) && IsBoolean(isLoaner)) ==> q == HistoryReply(BadRequest, [])
    ensures IsInt(userId) && IsBoolean(isLoaner) ==>
      && q.status == Ok
      && NewestFirst(q.rows)
      && multiset(q.rows) == multiset(JoinRows(RoleOf(isLoaner), userId.n, db.loans, db.items, db.accounts))
  {
    if !(IsInt(userId) && IsBoolean(isLoaner)) then HistoryReply(BadRequest, [])
    else HistoryReply(Ok, SortNewestFirst(JoinRows(RoleOf(isLoaner), userId.n, db.loans, db.items, db.accounts)))
  }

  /** Every row of a user's history is a loan on the requested side: lent by
      the user when `isLoaner` is 'true', borrowed by the user otherwise. */
  lemma HistoryIsTheUsersSide(db: Db, uid: UserId, isLoaner: Value)
    requires IsBoolean(isLoaner)
    ensures forall row :: row in LoanHistory(db, Int(uid), isLoaner).rows ==>
      if isLoaner == Bool(true) then row.loanerId == uid else row.borrowerId == uid
  {
    var rows := LoanHistory(db, Int(uid), isLoaner).rows;
    var joined := JoinRows(RoleOf(isLoaner), uid, db.loans, db.items, db.accounts);
    forall row | row in rows
      ensures if isLoaner == Bool(true) then row.loanerId == uid else row.borrowerId == uid
    {
      assert row in multiset(joined);
      assert row in joined;
      var l, item, a :| l in db.loans && item in db.items && a in db.accounts &&
        Party(RoleOf(isLoaner), l) == uid && Describes(RoleOf(isLoaner), l, item, a) && row == RowOf(l, item, a);
    }
  }

  /** Every loan on the requested side whose item and counterparty exist is in the history. */
  lemma HistoryIsComplete(db: Db, uid: UserId, isLoaner: Value, l: InvoicedLoan, item: LoanerItem, a: UserAccount)
    requires IsBoolean(isLoaner)
    requires l in db.loans && item in db.items && a in db.accounts
    requires Party(RoleOf(isLoaner), l) == uid && Describes(RoleOf(isLoaner), l, item, a)
    ensures RowOf(l, item, a) in LoanHistory(db, Int(uid), isLoaner).rows
  {
    var joined := JoinRows(RoleOf(isLoaner), uid, db.loans, db.items, db.accounts);
    assert RowOf(l, item, a) in joined;
    assert RowOf(l, item, a) in multiset(LoanHistory(db, Int(uid), isLoaner).rows);
  }

  /** `isLoaner=1` passes `isBoolean()` but is not the text 'true', so it
      reads the borrower's history. */
  lemma OneReadsBorrowerHistory(db: Db, uid: UserId)
    ensures LoanHistory(db, Int(uid), Int(1)) == LoanHistory(db, Int(uid), Bool(false))
  {
  }
}

=== FILE: seqs.dfy ===
/** Sequence helpers shared by the query and view models: order-preserving
    filtering and SQL's `distinct`. */
module Seqs {

  /** No element occurs twice. */
  predicate NoDup<T(==)>(s: seq<T>) {
    forall i, j :: 0 <= i < j < |s| ==> s[i] != s[j]
  }

  /** The elements of `s` that satisfy `p`, in their original order. */
  function Filter<T(==,!new)>(p: T -> bool, s: seq<T>): (r: seq<T>)
    ensures |r| <= |s|
    ensures forall x :: x in r <==> x in s && p(x)
    ensures multiset(r) <= multiset(s)
    ensures forall i :: 0 <= i < |s| && !p(s[i]) ==> |r| < |s|
    ensures (forall i :: 0 <= i < |s| ==> !p(s[i])) ==> r == []
  {
    if |s| == 0 then []
    else
      assert s == [s[0]] + s[1..];
      if p(s[0]) then [s[0]] + Filter(p, s[1..])
      else Filter(p, s[1..])
  }

  /** Filtering by `p` and by its negation `q` splits `s` into two parts that
      together hold every element exactly as often as `s` does. */
  lemma {:induction false} FilterSplits<T(!new)>(p: T -> bool, q: T -> bool, s: seq<T>)
    requires forall x :: q(x) <==> !p(x)
    ensures multiset(Filter(p, s)) + multiset(Filter(q, s)) == multiset(s)
  {
    if |s| > 0 {
      FilterSplits(p, q, s[1..]);
      assert s == [s[0]] + s[1..];
    }
  }

  /** A filter of a duplicate-free sequence is duplicate-free. */
  lemma {:induction false} FilterNoDup<T(!new)>(p: T -> bool, s: seq<T>)
    requires NoDup(s)
    ensures NoDup(Filter(p, s))
  {
    if |s| > 0 {
      assert NoDup(s[1..]) by {
        forall i, j | 0 <= i < j < |s[1..]| ensures s[1..][i] != s[1..][j] {
          assert s[1..][i] == s[i + 1] && s[1..][j] == s[j + 1];
        }
      }
      FilterNoDup(p, s[1..]);
      if p(s[0]) {
        var r := [s[0]] + Filter(p, s[1..]);
        forall i, j | 0 <= i < j < |r| ensures r[i] != r[j] {
          if i == 0 {
            assert r[j] in Filter(p, s[1..]);
            assert s[0] !in s[1..];
          }
        }
      }
    }
  }

  /** SQL `distinct`: the first occurrence of every element, in order. */
  function Distinct<T(==,!new)>(s: seq<T>): (r: seq<T>)
    ensures NoDup(r)
    ensures forall x :: x in r <==> x in s
    ensures |r| <= |s|
  {
    if |s| == 0 then []
    else
      var rest := Distinct(s[..|s| - 1]);
      if s[|s| - 1] in rest then rest else rest + [s[|s| - 1]]
  }

  /** In a duplicate-free sequence every member occurs exactly once. */
  lemma {:induction false} NoDupOnce<T(!new)>(s: seq<T>, x: T)
    requires NoDup(s)
    requires x in s
    ensures multiset(s)[x] == 1
  {
    if s[0] == x {
      assert x !in s[1..];
      assert s == [s[0]] + s[1..];
    } else {
      assert NoDup(s[1..]) by {
        forall i, j | 0 <= i < j < |s[1..]| ensures s[1..][i] != s[1..][j] {
          assert s[1..][i] == s[i + 1] && s[1..][j] == s[j + 1];
        }
      }
      NoDupOnce(s[1..], x);
      assert s == [s[0]] + s[1..];
    }
  }

  /** Filtering twice by the same predicate is filtering once. */
  lemma {:induction false} FilterIdempotent<T(!new)>(p: T -> bool, s: seq<T>)
    ensures Filter(p, Filter(p, s)) == Filter(p, s)
  {
    if |s| > 0 {
      FilterIdempotent(p, s[1..]);
    }
  }
}

=== FILE: tables.dfy ===
/** The relational state the server's handlers read and write, one record
    type per table, plus the request and reply shapes the handlers share.
    Dates are plain integers on one time scale; "today" is always a parameter. */
module Tables {
  import opened Wrappers
  import opened Seqs

  type UserId = int
  type ItemId = int
  type InvoiceId = int
  type Date = int

  /** A validated request parameter. `Int` stands for a JSON number or
      canonical integer text (no sign on a non-negative number, no leading
      zero, no white space), `Bool` for a JSON boolean or the text
      "true"/"false", `Other` for anything else: absent (sent to SQL as
      NULL), fractional, or words. */
  datatype Value = Int(n: int) | Bool(b: bool) | Other

  /** express-validator's `isInt()`. */
  predicate IsInt(v: Value) {
    v.Int?
  }

  /** express-validator's `isBoolean()`: true, false, "1" and "0". */
  predicate IsBoolean(v: Value) {
    v.Bool? || (v.Int? && (v.n == 0 || v.n == 1))
  }

  /** The HTTP outcome of a handler. `NoReply` is a rejected promise the
      handler does not catch: the client never gets an answer. */
  datatype Status = Ok | BadRequest | NotFound | NoReply

  datatype UserAccount = UserAccount(userId: UserId, name: string, address: string)

  /** The nullable columns of a LoanerItem row; `None` is SQL NULL. */
  datatype ItemFields = ItemFields(
    itemName: Option<string>,
    value: Option<int>,
    itemDescription: Option<string>,
    userId: Option<UserId>,
    loanFee: Option<int>,
    loanDuration: Option<int>)

  datatype LoanerItem = LoanerItem(itemId: ItemId, fields: ItemFields)

  /** The tri-state `isReturned` column: true, false (lost) or NULL. */
  datatype ReturnStatus = Returned | Lost | Pending

  datatype InvoicedLoan = InvoicedLoan(
    invoiceId: InvoiceId,
    itemId: ItemId,
    loanerId: UserId,
    borrowerId: UserId,
    startDate: Option<Date>,
    endDate: Option<Date>,
    penalty: Option<int>,
    loanFee: Option<int>,
    isReturned: ReturnStatus)

  /** A row of the Joins table: `userId` is a member of `groupName`. */
  datatype Membership = Membership(userId: UserId, groupName: string, joinDate: Date)

  datatype Db = Db(
    accounts: seq<UserAccount>,
    items: seq<LoanerItem>,
    loans: seq<InvoicedLoan>,
    loaners: seq<UserId>,
    borrowers: seq<UserId>,
    joins: seq<Membership>,
    nextItemId: ItemId)

  /** The keys the schema declares: item ids come from a serial counter and
      are unique; invoice ids are unique; the registries hold each user once. */
  ghost predicate Valid(db: Db) {
    && (forall i, j :: 0 <= i < j < |db.items| ==> db.items[i].itemId != db.items[j].itemId)
    && (forall i :: 0 <= i < |db.items| ==> db.items[i].itemId < db.nextItemId)
    && (forall i, j :: 0 <= i < j < |db.loans| ==> db.loans[i].invoiceId != db.loans[j].invoiceId)
    && NoDup(db.loaners)
    && NoDup(db.borrowers)
  }

  /** A stored procedure the handler invokes; its body is not part of this model. */
  datatype ProcCall =
    | InsertNewInvoicedLoan(date: Date, loanerId: UserId, borrowerId: UserId, itemId: ItemId)
    | UpdateStatusOfLoanedItem(isReturned: bool, invoiceId: InvoiceId)
    | InsertNewBid(bidder: UserId, advId: int, bidDate: Date, price: int)

  /** What a mutating handler leaves behind: the new state, the status it
      answers with and the procedure call it made, if any. */
  datatype Reply = Reply(db: Db, status: Status, call: Option<ProcCall>)

  /** Lazy registration in the `loaner` or `borrower` table: look the user
      up and insert a row only when none was found. */
  function Register(registry: seq<UserId>, u: UserId): (r: seq<UserId>)
    ensures u in r
    ensures registry <= r
    ensures multiset(r) - multiset(registry) <= multiset{u}
    ensures NoDup(registry) ==> NoDup(r)
  {
    if u in registry then registry else registry + [u]
  }

  /** Registering twice adds nothing the first registration did not. */
  lemma RegisterIdempotent(registry: seq<UserId>, u: UserId)
    ensures Register(Register(registry, u), u) == Register(registry, u)
  {
  }

  /** A registration grows the registry by at most the one id registered. */
  lemma RegisterGrowsByAtMostOne(registry: seq<UserId>, u: UserId)
    ensures |Register(registry, u)| <= |registry| + 1
    ensures forall v :: v in Register(registry, u) <==> v in registry || v == u
  {
  }
}

=== FILE: wrappers.dfy ===
/** The optional value used wherever the source has `null` / `undefined`. */
module Wrappers {

  datatype Option<+T> = None | Some(value: T) {

    /** Returns the value held in Some, or `default` when None. */
    function GetOr(default: T): T {
      match this
      case Some(v) => v
      case None => default
    }
  }
}
